=== FILE: README.md ===
# Absence.Fody — a Dafny model of the trimmer

Absence.Fody is a Fody weaver that removes unused types from a compiled .NET
assembly. Its logic is a mark-and-sweep over the Mono.Cecil object graph. It
lives in the `Walkies` class plus one driver:

- **mark** (`Walkies.Walk.cs`, `Has`): a depth-first walk over the graph.
  Every `Walk` overload first test-and-sets the object in a `HashSet<object>`.
  When the object is new, the overload walks a fixed list of its fields. A
  module's `Types` and a type's `NestedTypes` are walked only where `IsPublic`
  holds.
- **keep policy** (`IsPublic`, `AnyPublic`, `AnyImplicit`, `IsImplicit`,
  `AnyEqual`, the exemption set built by the constructor): which types seed
  the walk, and which types survive the sweep.
- **sweep** (`Mutate`): a stable split of a type collection into kept and
  removed types. It removes the latter and recurses only into the kept types'
  nested types.
- **pipeline** (`WalkExtensions.Trim`): log the exemptions, walk the whole
  assembly, sweep every module's top-level types with the finished set, and
  log each removal.

The model keeps this structure, one module per concern:

| file | module | models |
|---|---|---|
| `wrappers.dfy` | `Wrappers` | `Option`, for nullable values |
| `cecil.dfy` | `Cecil` | the object graph: objects by identity (`Ref(id)`) or by value (boxed constants and the two attribute-argument structs); one `Node` per Cecil object with its class, names, flags, fields and collections; the type tree (`TypeNode`) that `Mutate` filters |
| `seqs.dfy` | `Seqs` | `Where` as `Filter`; `Distinct` |
| `policy.dfy` | `Policy` | `IsPublic` and its helpers, the constant names, the exemption set |
| `walkies.dfy` | `Walkies` | the instance state; the constructor, `Has`, `Count`, `AnyEqual`, `Display` |
| `walking.dfy` | `Walking` | `Match` and every `Walk` overload as one function `Walk`, with a per-class table of statements (`Statements`) |
| `walk_properties.dfy` | `WalkProperties` | soundness and completeness of the walk w.r.t. reachability, at-most-once recording, idempotence, the per-class field lists |
| `sweep.dfy` | `Sweep` | `Mutate` and its properties |
| `trim.dfy` | `WalkExtensions` | `Trim` and its properties |
| `trim_graph.dfy` | `TrimGraph` | when the graph's `Types` and `NestedTypes` agree with the type trees (`Coherent`), and why `Trim` keeps them agreeing |
| `playground.dfy` | `Playground` | the playground assembly (`Absence.Fody.Playground`) as a concrete fixture, trimmed end to end |

The mutable `Walkies` instance becomes a value: `Walkies(except, hash, order)`.
`order` is the order in which the set received its elements. Every `Walk`
returns the instance it was called on, so the model returns the new state.
Each runtime class has exactly one overload that expands it, so the
dispatching overloads collapse into one function:

- `Match`;
- the `MemberReference` and `TypeReference` switches;
- `MethodReference` → `MethodDefinition`;
- `ModuleReference` → `ModuleDefinition`.

`Succ(g, x)` then lists, in source order, the objects that overload walks.
`Walk` terminates on cyclic graphs under the measure (unvisited objects of the
graph, nesting depth of attribute-argument structs).

Where the code is narrower than a generic description of such a trimmer, the
model follows the code:

- Exemptions are compared by exact ordinal string equality, not as patterns.
- An exempted type survives the sweep, but it is not walked.
- A type visit walks all of its events, fields, methods and properties. Only
  `NestedTypes` (and a module's `Types`) go through `IsPublic`.
- Any constructor is public, and so is any method whose `GetBaseMethod()` is
  another method.
- Only types are ever removed: `Mutate` never touches members.
- Marker attributes count on the object itself, not on its declaring chain.
  A private nested class whose only marked member is a method is removed with
  its members. The playground's `Bad3` and `Bad9` show this.

## Model

| member | source | states |
|---|---|---|
| `Walkies.New` | Source/Walkies.cs:46-47 | the fresh instance has an empty visited set, and its exemption set holds exactly the non-null, non-blank entries |
| `Policy.Exemptions` | Source/Walkies.cs:46-47 | the exemption set holds each non-null, non-whitespace entry exactly once; a null list gives the empty set |
| `Policy.BlankNeverExempts` | Source/Walkies.cs:46-47 | a blank string such as the empty namespace is never in the exemption set |
| `WalkExtensions.BlankExemptionsAreNone` | Source/Walkies.cs:47 | a list of only null or blank entries trims exactly as no list at all |
| `Walkies.Has` | Source/Walkies.cs:130 | the answer is true iff `x` is null or already present; then nothing changes; otherwise `x` is added at the end of the insertion order |
| `Walkies.HasGrows` | Source/Walkies.cs:130 | the set only grows, holds `x` afterwards unless `x` is null, and `Count` rises by one exactly when `x` was new |
| `Walkies.CountIsInsertions` | Source/Walkies.cs:50 | `Count` equals the number of objects the set has received |
| `Walkies.GlobalNamespaceNeverExempts` | Source/Walkies.cs:127-128 | a type of the global namespace survives only by being visited or by its full name or name |
| `Walkies.DisplayNew` | Source/Walkies.cs:46-70 | a fresh instance displays no line twice, and a `Configured to keep "s".` line exactly for each non-null, non-blank entry `s` of the exemption list |
| `Policy.NullNeverPublic` | Source/Walkies.cs:123-124 | null is never public; a value that is not a Cecil object always is |
| `Policy.MarkerMakesPublic` | Source/Walkies.cs:98-107 | an attribute provider carrying a `CompilerGenerated`, `MeansImplicitUse` or `UsedImplicitly` attribute is public whatever its class and flags |
| `Policy.SpecialNamesPublic` | Source/Walkies.cs:108-117 | a member reference whose full name is `<Module>`, `Program`, `Program.Main`, `Program.<Main>$` or `System.Runtime.CompilerServices.IsExternalInit`, or ends with `ProcessedByFody`, is public |
| `Policy.KindRules` | Source/Walkies.cs:95-124 | otherwise: a field by its flag; a method by its flag, as a constructor or as an override; a type by `IsPublic` or `IsNestedPublic`; an event or property iff an accessor or other method is public; anything else always |
| `Policy.PublicOnly` | Source/Walkies.Walk.cs:279 | `Where(IsPublic)` keeps exactly the public entries |
| `Walking.Walk` | Source/Walkies.Walk.cs:12-37 | a null or visited object leaves the state unchanged; a new one is recorded with all its walked fields recorded; the set only grows and stays valid |
| `Walking.WalkEach` | Source/Walkies.Walk.cs:70-72 | after `Select(Walk).Enumerate()` every non-null element is recorded and the set only grew |
| `Walking.GatherHas` | Source/Walkies.Walk.cs:63-74 | an object is among an overload's walked fields iff one of its statements reads it |
| `WalkProperties.WalkSound` | Source/Walkies.Walk.cs:63-74 | everything a walk adds is reachable from the root through walked fields without crossing the prior set |
| `WalkProperties.WalkComplete` | Source/Walkies.Walk.cs:63-74 | the end of every such path from the root is recorded |
| `WalkProperties.WalkIsReachability` | Source/Walkies.Walk.cs:325-373 | the set after a walk is exactly the prior set plus the objects reachable from the root through the fields each overload reads |
| `WalkProperties.WalkSeenIsNoOp` | Source/Walkies.Walk.cs:343-344 | walking a null or visited object changes nothing |
| `WalkProperties.WalkEachIdempotent` | Source/Walkies.Walk.cs:65-66 | walking the same roots a second time changes nothing |
| `WalkProperties.WalkRecordsOnce` | Source/Walkies.Walk.cs:341-359 | each object is appended once, after everything recorded before, never one already present, and `Count` grows by the number appended |
| `WalkProperties.FreshWalkIsClosed` | Source/Walkies.Walk.cs:270-286 | after a walk from a fresh instance, every recorded object has all its walked fields recorded |
| `WalkProperties.WalkStaysWithin` | Source/Walkies.Walk.cs:270-286 | a set containing the root and closed under walked fields bounds what the walk adds |
| `WalkProperties.MatchRecordsLeaves` | Source/Walkies.Walk.cs:12-37 | a boxed value, a module reference, or an object of a class without an overload is recorded and nothing more |
| `WalkProperties.ExpandAssembly` | Source/Walkies.Walk.cs:63-74 | an assembly walks EntryPoint, MainModule, SecurityDeclarations, CustomAttributes, Modules, in this order |
| `WalkProperties.ExpandModule` | Source/Walkies.Walk.cs:270-286 | a module walks Assembly, EntryPoint, CustomAttributes, ModuleReferences and the public Types, in this order |
| `WalkProperties.ExpandTypeDefinition` | Source/Walkies.Walk.cs:341-359 | a type definition walks exactly its listed fields and collections and its public nested types |
| `WalkProperties.TypeDefinitionOrder` | Source/Walkies.Walk.cs:341-359 | the same, in source order |
| `WalkProperties.ExpandTypeReference` | Source/Walkies.Walk.cs:325-338 | a plain type reference walks DeclaringType, Module and GenericParameters |
| `WalkProperties.ExpandTypeSpecification` | Source/Walkies.Walk.cs:362-373 | a type specification walks DeclaringType, ElementType, Module, GetElementType() and GenericParameters, and nothing else |
| `WalkProperties.ExpandCustomAttribute` | Source/Walkies.Walk.cs:87-98 | a custom attribute walks AttributeType, Constructor, ConstructorArguments, Fields, Properties |
| `WalkProperties.DeclaringTypeKinds` | Source/Walkies.Walk.cs:101-392 | an overload has a `Walk(x.DeclaringType)` statement exactly for event, field, method, property and type definitions, type references, generic parameters, type specifications, method references and (through MemberReference's last arm) field references |
| `WalkProperties.DeclaringTypeIsWalked` | Source/Walkies.Walk.cs:101-392 | for each of those ten classes the declaring type is among the walked fields |
| `WalkProperties.WalkClosesDeclaringTypes` | Source/Walkies.Walk.cs:101-392 | a walk that records an event, field, method, property or type definition, a type or method reference, a field reference, a generic parameter or a type specification also records its declaring type |
| `WalkProperties.ModuleWalksPublicTypes` | Source/Walkies.Walk.cs:279 | a module's top-level type is walked if public, and not walked if not public and not read elsewhere |
| `WalkProperties.TypeWalksMembersAndPublicNested` | Source/Walkies.Walk.cs:350-357 | all events, fields, methods and properties are walked; nested types only when public |
| `WalkProperties.BodyReachesOperands` | Source/Walkies.Walk.cs:171-180 | once a body is recorded, each of its instructions is, and with it the instruction's operand and neighbours |
| `Sweep.Used` | Source/Walkies.cs:88 | the kept part holds exactly the types satisfying `AnyEqual` |
| `Sweep.Unused` | Source/Walkies.cs:88 | the removed part holds exactly the types failing `AnyEqual` |
| `Sweep.Mutate` | Source/Walkies.cs:86-93 | nothing reported satisfies `AnyEqual` |
| `Sweep.MutateUnused` | Source/Walkies.cs:88-92 | the types removed from the collection itself are exactly those failing `AnyEqual`, in order, reported before the nested removals |
| `Sweep.MutateKeeps` | Source/Walkies.cs:86-93 | the remaining types are exactly the kept ones, in order, unchanged but for their nested types, and everything left anywhere in the tree satisfies `AnyEqual` |
| `Sweep.MutateConserves` | Source/Walkies.cs:86-93 | every type of the tree, nested ones included, is either still in the tree or reported, exactly once |
| `Sweep.RemovedSubtreesSilent` | Source/Walkies.cs:89-92 | a removed type's nested types are not reported on their own |
| `Sweep.MutateAllKept` | Source/Walkies.cs:86-93 | a tree whose every type is kept comes through unchanged and nothing is reported |
| `Sweep.MutateIdempotent` | Source/Walkies.cs:86-93 | sweeping a second time with the same set removes nothing |
| `Sweep.VisitedSurvive` | Source/Walkies.cs:127-128 | when every visited nested type has a visited container, every visited type survives the sweep |
| `WalkExtensions.Walked` | Source/WalkExtensions.cs:22 | the set the sweep uses holds the assembly and is closed under the walked fields |
| `WalkExtensions.SweepModules` | Source/WalkExtensions.cs:24-26 | every module's types are swept with the same set; every reported type fails `AnyEqual` |
| `WalkExtensions.Trim` | Source/WalkExtensions.cs:16-30 | the same assembly with each module swept by the finished walk; every graph node unchanged except that its `Types` and `NestedTypes` no longer hold the removed types; the log is the keep lines, then the removal lines |
| `WalkExtensions.TrimDefault` | Source/WalkExtensions.cs:8-9 | without exemptions only unvisited types are removed and only removal lines are logged |
| `WalkExtensions.TrimLogOrder` | Source/WalkExtensions.cs:22-27 | the log opens with one keep line per exemption and then holds one removal line per removed type |
| `WalkExtensions.TrimConserves` | Source/WalkExtensions.cs:24-27 | every type of every module is either still in its module or reported, exactly once |
| `WalkExtensions.ClosedIsUpClosed` | Source/Walkies.Walk.cs:341-347 | in a set closed under walked fields, the container of every visited nested type is visited |
| `WalkExtensions.TrimKeepsVisited` | Source/WalkExtensions.cs:22-26 | every visited type definition is still in its module after `Trim` |
| `TrimGraph.WithoutTypeRefs` | Source/Walkies.cs:88-90 | removing the types that fail `AnyEqual` from a collection's references leaves exactly the references of the kept types, in order |
| `TrimGraph.TrimCoherent` | Source/Walkies.cs:86-93 | in an assembly whose graph agrees with its type trees and holds each type once, `Trim` keeps that agreement: each module's `Types` and each kept type's `NestedTypes` list exactly the types its tree keeps, in order |
| `TrimGraph.CoherentKeepsVisited` | Source/WalkExtensions.cs:22-26 | in such an assembly, every visited type definition is still in its module after `Trim` |
| `TrimGraph.TrimTouchesOnlyTrees` | Source/Walkies.cs:90 | with single ownership, `Trim` leaves every node that is neither a module nor a type of the trees exactly as it was |
| `TrimGraph.TrimKeepsRemovedNodes` | Source/Walkies.cs:90 | in a coherent assembly with single ownership, `Trim` leaves a removed type's `NestedTypes` and member collections as they were (the model's whole node, since it keeps the back-links Mono.Cecil clears; see Left out) |
| `Playground.Visible` | Absence.Fody.Playground/Source/Program.cs:7-44 | `<Module>`, `Good1`, `Good2` and `Good9` are public |
| `Playground.MarkedGood5` | Absence.Fody.Playground/Source/Program.cs:19-20 | `Good5` is public through `[UsedImplicitly]` |
| `Playground.MarkedGood8` | Absence.Fody.Playground/Source/Program.cs:41-42 | `Good8` is public through `[UsedImplicitly]` |
| `Playground.MarkedGood12` | Absence.Fody.Playground/Source/Program.cs:54-55 | `Good12` is public through `[UsedImplicitly]` |
| `Playground.HiddenClasses` | Absence.Fody.Playground/Source/Program.cs:30-80 | `Bad3`, `Bad9`, `Bad14` and the attribute class are not public |
| `Playground.VisitedIsClosed` | Absence.Fody.Playground/Source/Program.cs:7-112 | the expected visited set is closed under the walked fields |
| `Playground.WalkedIsVisited` | Absence.Fody.Playground/Source/Program.cs:7-112 | walking the playground assembly visits exactly the expected set |
| `Playground.TreeNests` | Absence.Fody.Playground/Source/Program.cs:7-112 | the type tree nests as Cecil nests it |
| `Playground.PlaygroundMutate` | Absence.Fody.Playground/Source/Program.cs:7-112 | the sweep of the playground module removes `Bad14`, `Bad3` and `Bad9`; the rest remains |
| `Playground.PlaygroundTrim` | Absence.Fody.Playground/Source/Program.cs:7-112 | `Trim` reports `Bad14`, `Bad3` and `Bad9` once each, never `Bad15`, `Bad19` or `Bad23`, and keeps `Good1`, `Good2`, `Good5`, `Good8`, `Good9`, `Good12` |

## Left out

- `ModuleWeaver.cs` and `Program.cs` (the Fody plugin and the console loop): configuration reading, assembly I/O and `WriteInfo`. The logger is modelled as the list of lines it receives.
- `ToString` and `DisplayHash`: string rendering of the whole set, which depends on Cecil's `ToString` of every object.
- HashSet enumeration order: `Display` iterates the exemption set. A `HashSet<string>` holding only additions enumerates in insertion order; the model fixes that order.
- `EndsWith("ProcessedByFody")` is culture-sensitive in .NET. The model compares characters ordinally; for that ASCII suffix the two agree except under unusual cultures.
- `WalkExtensions.Trim`: each removal line prints the full name the type had before it was removed. The source prints after `Remove`, and Mono.Cecil detaches a removed type; a nested type that loses its declaring type may then print a shorter name. Mono.Cecil is not part of this model.
- `WalkExtensions.Unlink` takes a removed type out of every `Types` and `NestedTypes` collection of the graph, while `Remove` acts on the one collection being swept. The two agree when the graph follows Mono.Cecil's ownership rule, `TrimGraph.SingleOwner`: only modules hold the trees' types in `Types`, and only the trees' types hold them in `NestedTypes`. Under that rule `Trim` changes no node outside the trees (`TrimGraph.TrimTouchesOnlyTrees`) and leaves every removed type's nested types and members with it (`TrimGraph.TrimKeepsRemovedNodes`). `TrimGraph.Coherent` does not include the rule. In a graph that breaks it, `Unlink` also edits the outside node that lists a removed type, and `Remove` would not.
- `TrimGraph.TrimKeepsRemovedNodes`: Mono.Cecil's `Remove` detaches the removed type, clearing its `DeclaringType` when it is nested and its module link when it is top-level. The model has no such back-link update, so the lemma's node equality promises only what the model keeps: the removed type's `NestedTypes` and member collections are as before. Mono.Cecil is not part of this model.
- `Mutate`'s nested removals are computed lazily in the source, when the log enumerates them. They are computed eagerly here. Each kept type's nested collection is disjoint from everything else, so the result is the same.
- Routing by static type: a `FunctionPointerType` is both a `TypeSpecification` and an `IMethodSignature`. The model walks it as a type specification; `Match` would route it as a method signature.
- `Policy.KindRules`: events and properties are tested through their accessors, which Cecil always types as `MethodDefinition`s. If an accessor position held an event or property, the `outer &&` guard makes it not public instead of recursing further; the source would recurse.
- Recursion depth: every `Walk` overload recurses on the call stack, and `Walk(Instruction)` follows `Previous` and `Next` (Source/Walkies.Walk.cs:171-180), so one long method body nests one call per instruction. A large enough body can overflow the stack in the source; the model has no stack and proves that every walk terminates.
- Cecil internals (`FullName` formatting, `GetBaseMethod()`, `GetElementType()`, `GetScopes()`, visibility flags, collection contents) are given node fields, not computed.
- The playground fixture holds only the types declared in the playground's sources: no compiler- or weaver-injected types, no methods, generic parameters or assembly-level attributes, and no `[AttributeUsage(AttributeTargets.All)]` on `UsedImplicitlyAttribute` (Absence.Fody.Playground/Source/UsedImplicitlyAttribute.cs:7), which only reaches framework types. Methods are never removed by this code, and in the playground they decide no type's fate: every type a method could reach is reached through the type tree anyway. Its top-level type order is `<Module>`, `Good1`, `Good8`, `Bad14`, `UsedImplicitlyAttribute`.

=== FILE: cecil.dfy ===
/**
 * The Mono.Cecil object graph, as the walker sees it.
 *
 * Cecil objects are reference types compared by identity; the model gives each
 * one an id and keeps its fields in a node of a finite map. Boxed primitives,
 * strings and the two attribute-argument structs are values, compared by
 * contents, exactly as the default equality of a HashSet<object> compares them.
 */
module Cecil {

  /** Anything a Walk overload or Match can be handed. */
  datatype Obj =
    | Null
      /** A Cecil object (assembly, module, type, member, instruction, ...), by identity. */
    | Ref(id: nat)
      /** A boxed primitive or a string: an operand or a constant; equal when type and value are. */
    | Boxed(typeName: string, image: string)
      /** CustomAttributeArgument: a struct holding a type reference and a value. */
    | Argument(argType: Obj, argValue: Obj)
      /** CustomAttributeNamedArgument: a struct holding a name and a CustomAttributeArgument. */
    | Named(argName: string, argument: Obj)

  /** The runtime class of a Cecil object; it selects the Walk overload that expands it. */
  datatype Kind =
    | AssemblyDefinition
    | ModuleDefinition
      /** A ModuleReference that is not a ModuleDefinition. */
    | ModuleReference
    | TypeDefinition
      /** A TypeReference that is neither a definition nor a specification. */
    | TypeReference
    | TypeSpecification
    | GenericParameter
    | MethodDefinition
      /** A MethodReference that is not a MethodDefinition (including generic instances). */
    | MethodReference
      /** An IMethodSignature that is not a MethodReference. */
    | CallSite
    | FieldDefinition
      /** A MemberReference of no other listed class, such as a FieldReference. */
    | FieldReference
    | PropertyDefinition
    | EventDefinition
    | ParameterDefinition
    | MethodReturnType
    | VariableDefinition
    | MethodBody
    | Instruction
    | ExceptionHandler
    | CustomAttribute
    | SecurityDeclaration
    | SecurityAttribute
    | InterfaceImplementation
    | MethodDebugInformation
    | ScopeDebugInformation
    | ConstantDebugInformation
    | ImportDebugInformation
    | ImportTarget
      /** Any class no Walk overload expands (arrays of instructions, constraints, ...). */
    | Opaque

  /** The Cecil properties and collections the walker reads, named as in Cecil. */
  datatype Field =
    | AddMethod | Assembly | AttributeType | BaseType | Body | CatchType | Constant | ConstantType
    | Constants | Constructor | ConstructorArguments | CustomAttributes | DebugInformation
    | DeclaringType | ElementType | EntryPoint | EventType | Events | ExceptionHandlers
    | FieldType | Fields | FilterStart | GenericParameters | GetElementType | GetMethod
    | GetScopes | HandlerEnd | HandlerStart | Import | Instructions | InterfaceType | Interfaces
    | InvokeMethod | MainModule | Method | MethodReturnType | Methods | Module | ModuleReferences
    | Modules | NestedTypes | Next | Operand | OtherMethods | Overrides | ParameterType
    | Parameters | Parent | Previous | Properties | PropertyType | RemoveMethod | ReturnType
    | Scope | Scopes | SecurityAttributes | SecurityDeclarations | SetMethod
    | StateMachineKickOffMethod | Targets | ThisParameter | TryEnd | TryStart | Type | Types
    | Value | VariableType | Variables

  /**
   * One Cecil object: its class, the names and flags the keep policy reads,
   * `baseMethod` (what GetBaseMethod() returns; the method itself when it
   * overrides nothing), its single-valued fields and its collections.
   * A field missing from `refs` is null; a collection missing from `lists` is
   * null or empty (the walker skips both alike).
   */
  datatype Node = Node(
    kind: Kind,
    fullName: string,
    name: string,
    ns: string,
    isPublic: bool,
    isNestedPublic: bool,
    isConstructor: bool,
    baseMethod: Obj,
    refs: map<Field, Obj>,
    lists: map<Field, seq<Obj>>)

  type Graph = map<nat, Node>

  /** The value of a single-valued field; null when absent. */
  function One(n: Node, f: Field): Obj {
    if f in n.refs then n.refs[f] else Null
  }

  /** The elements of a collection; empty when absent. */
  function Many(n: Node, f: Field): seq<Obj> {
    if f in n.lists then n.lists[f] else []
  }

  /** Every Cecil object of the graph, as the walker would record it. */
  function Refs(g: Graph): (r: set<Obj>)
    ensures forall id :: id in g ==> Ref(id) in r
    ensures forall o :: o in r ==> o.Ref? && o.id in g
  {
    set id | id in g :: Ref(id)
  }

  /** The classes deriving from MemberReference, which carry a FullName. */
  predicate IsMemberReference(k: Kind) {
    k in {TypeDefinition, TypeReference, TypeSpecification, GenericParameter, MethodDefinition,
          MethodReference, FieldDefinition, FieldReference, PropertyDefinition, EventDefinition}
  }

  /** The classes implementing ICustomAttributeProvider. */
  predicate IsAttributeProvider(k: Kind) {
    k in {AssemblyDefinition, ModuleDefinition, TypeDefinition, GenericParameter, MethodDefinition,
          FieldDefinition, PropertyDefinition, EventDefinition, ParameterDefinition,
          Kind.MethodReturnType, InterfaceImplementation}
  }

  /** The classes implementing ICustomAttribute. */
  predicate IsCustomAttribute(k: Kind) {
    k in {CustomAttribute, SecurityAttribute}
  }

  /**
   * A TypeDefinition as a node of its module's type tree: the collection that
   * Mutate filters. `members` stands for its methods, fields, properties and
   * events, which the sweep never touches.
   */
  datatype TypeNode = TypeNode(
    id: nat,
    fullName: string,
    name: string,
    ns: string,
    members: seq<nat>,
    nested: seq<TypeNode>)
}

=== FILE: playground.dfy ===
/**
 * The playground assembly (Absence.Fody.Playground) as a fixture: one module
 * holding `<Module>`, the Good and Bad classes of Program.cs and the local
 * UsedImplicitlyAttribute class, with the attribute instances that mark
 * Good5, Good8, Good12 and Bad19. Methods are not part of the fixture.
 */
module Playground {
  import opened Wrappers
  import opened Cecil
  import opened Policy
  import opened Walkies
  import opened Walking
  import opened WalkProperties
  import opened Sweep
  import opened WalkExtensions

  const Ns := "Absence.Fody.Playground"

  /** A class of the module: a TypeDefinition whose Module is the playground module (node 1). */
  function Class(fullName: string, name: string, ns: string, isPublic: bool, isNestedPublic: bool,
                 declaring: Obj, base: Obj, attributes: seq<Obj>, nested: seq<Obj>): Node
  {
    Node(TypeDefinition, fullName, name, ns, isPublic, isNestedPublic, false, Null,
         map[BaseType := base, DeclaringType := declaring, Module := Ref(1)],
         map[CustomAttributes := attributes, NestedTypes := nested])
  }

  /** An instance of `[UsedImplicitly]`: its attribute type is the local class (node 15). */
  function UsedImplicitlyInstance(): Node {
    Node(CustomAttribute, "", "", "", false, false, false, Null, map[AttributeType := Ref(15)], map[])
  }

  /** A reference to a type of another assembly, made from the playground module. */
  function Imported(fullName: string, name: string): Node {
    Node(TypeReference, fullName, name, "System", false, false, false, Null, map[Module := Ref(1)], map[])
  }

  /** The objects of the playground assembly, by id. */
  function N(id: nat): Node {
    match id
    case 0 => Node(AssemblyDefinition, Ns, Ns, "", false, false, false, Null,
                   map[MainModule := Ref(1)], map[Modules := [Ref(1)]])
    case 1 => Node(ModuleDefinition, Ns + ".dll", Ns + ".dll", "", false, false, false, Null,
                   map[Field.Assembly := Ref(0)], map[Types := [Ref(2), Ref(3), Ref(7), Ref(11), Ref(15)]])
    case 2 => Class(ModuleName, ModuleName, "", false, false, Null, Null, [], [])
    case 3 => Class(Ns + ".Good1", "Good1", Ns, true, false, Null, Ref(20), [], [Ref(4), Ref(5), Ref(6)])
    case 4 => Class(Ns + ".Good1/Good2", "Good2", "", false, true, Ref(3), Ref(20), [], [])
    case 5 => Class(Ns + ".Good1/Good5", "Good5", "", false, false, Ref(3), Ref(20), [Ref(16)], [])
    case 6 => Class(Ns + ".Good1/Bad3", "Bad3", "", false, false, Ref(3), Ref(20), [], [])
    case 7 => Class(Ns + ".Good8", "Good8", Ns, false, false, Null, Ref(20), [Ref(17)], [Ref(8), Ref(9), Ref(10)])
    case 8 => Class(Ns + ".Good8/Good9", "Good9", "", false, true, Ref(7), Ref(20), [], [])
    case 9 => Class(Ns + ".Good8/Good12", "Good12", "", false, false, Ref(7), Ref(20), [Ref(18)], [])
    case 10 => Class(Ns + ".Good8/Bad9", "Bad9", "", false, false, Ref(7), Ref(20), [], [])
    case 11 => Class(Ns + ".Bad14", "Bad14", Ns, false, false, Null, Ref(20), [], [Ref(12), Ref(13), Ref(14)])
    case 12 => Class(Ns + ".Bad14/Bad15", "Bad15", "", false, true, Ref(11), Ref(20), [], [])
    case 13 => Class(Ns + ".Bad14/Bad19", "Bad19", "", false, false, Ref(11), Ref(20), [Ref(19)], [])
    case 14 => Class(Ns + ".Bad14/Bad23", "Bad23", "", false, false, Ref(11), Ref(20), [], [])
    case 15 => Class(UsedImplicitly, "UsedImplicitlyAttribute", "JetBrains.Annotations", false, false,
                     Null, Ref(21), [], [])
    case 16 => UsedImplicitlyInstance()
    case 17 => UsedImplicitlyInstance()
    case 18 => UsedImplicitlyInstance()
    case 19 => UsedImplicitlyInstance()
    case 20 => Imported("System.Object", "Object")
    case 21 => Imported("System.Attribute", "Attribute")
    case _ => Node(Opaque, "", "", "", false, false, false, Null, map[], map[])
  }

  const G: Graph := map id | 0 <= id < 22 :: N(id)

  /** A full name that is neither well known nor ends with the weaver's marker suffix. */
  lemma Ordinary(s: string)
    requires |s| >= |ProcessedSuffix| && s[|s| - 1] != 'y' && |s| !in {7, 8, 12, 15, 46}
    ensures !IsWellKnown(s) && !EndsWith(s, ProcessedSuffix)
  {
    assert s[|s| - |ProcessedSuffix|..][|ProcessedSuffix| - 1] == s[|s| - 1];
  }

  /** `<Module>` is public by its name, Good1 by its modifier, Good2 and Good9 as public nested classes. */
  lemma Visible(k: nat)
    requires k in {2, 3, 4, 8}
    ensures IsPublic(G, Ref(k))
  {
    assert G[k] == N(k);
  }

  /** Every `[UsedImplicitly]` instance of the fixture is an implicit-use marker. */
  lemma UsedImplicitlyMarks(a: nat)
    requires a in {16, 17, 18, 19}
    ensures IsImplicit(G, Ref(a))
  {
    assert G[a] == UsedImplicitlyInstance() && G[15] == N(15);
  }

  /** Good5, Good8 and Good12 are public through their `[UsedImplicitly]` attribute. */
  lemma MarkedGood5()
    ensures IsPublic(G, Ref(5))
  {
    UsedImplicitlyMarks(16);
    assert G[5] == N(5);
    MarkerMakesPublic(G, 5, Ref(16));
  }

  lemma MarkedGood8()
    ensures IsPublic(G, Ref(7))
  {
    UsedImplicitlyMarks(17);
    assert G[7] == N(7);
    MarkerMakesPublic(G, 7, Ref(17));
  }

  lemma MarkedGood12()
    ensures IsPublic(G, Ref(9))
  {
    UsedImplicitlyMarks(18);
    assert G[9] == N(9);
    MarkerMakesPublic(G, 9, Ref(18));
  }

  lemma HiddenClass(k: nat)
    requires k in {6, 10, 11, 15}
    ensures !IsPublic(G, Ref(k))
  {
    assert G[k] == N(k);
    Ordinary(N(k).fullName);
  }

  /** Bad3, Bad9, Bad14 and the attribute class are neither visible nor marked. */
  lemma HiddenClasses()
    ensures !IsPublic(G, Ref(6)) && !IsPublic(G, Ref(10)) && !IsPublic(G, Ref(11)) && !IsPublic(G, Ref(15))
  {
    HiddenClass(6);
    HiddenClass(10);
    HiddenClass(11);
    HiddenClass(15);
  }

  /** The objects the walk from the assembly records. */
  const Visited: set<Obj> := {Ref(0), Ref(1), Ref(2), Ref(3), Ref(4), Ref(5), Ref(7), Ref(8), Ref(9),
                              Ref(15), Ref(16), Ref(17), Ref(18), Ref(20), Ref(21)}

  /** What the type definition overload walks on a class of the fixture. */
  lemma ClassExpand(g: Graph, fullName: string, name: string, ns: string, isPublic: bool, isNestedPublic: bool,
                    declaring: Obj, base: Obj, attributes: seq<Obj>, nested: seq<Obj>)
    ensures var n := Class(fullName, name, ns, isPublic, isNestedPublic, declaring, base, attributes, nested);
      forall x :: x in Expand(g, n) <==> x in [base, declaring, Ref(1)] || x in attributes || x in PublicOnly(g, nested)
  {
    var n := Class(fullName, name, ns, isPublic, isNestedPublic, declaring, base, attributes, nested);
    ExpandTypeDefinition(g, n);
  }

  /** A class is expanded in `c` when its walked fields, attributes and public nested types are. */
  lemma ClassClosed(g: Graph, c: set<Obj>, k: nat, fullName: string, name: string, ns: string, isPublic: bool,
                    isNestedPublic: bool, declaring: Obj, base: Obj, attributes: seq<Obj>, nested: seq<Obj>)
    requires k in g && g[k] == Class(fullName, name, ns, isPublic, isNestedPublic, declaring, base, attributes, nested)
    requires (declaring == Null || declaring in c) && (base == Null || base in c) && Ref(1) in c
    requires forall y :: y in attributes ==> y in c
    requires forall y :: y in nested && IsPublic(g, y) ==> y in c
    ensures Expanded(g, c, Ref(k))
  {
    ClassExpand(g, fullName, name, ns, isPublic, isNestedPublic, declaring, base, attributes, nested);
  }

  /** The successors of each visited object are null or visited. */
  lemma Closed2()
    ensures Expanded(G, Visited, Ref(2))
  {
    assert G[2] == N(2);
    ClassClosed(G, Visited, 2, ModuleName, ModuleName, "", false, false, Null, Null, [], []);
  }

  lemma Closed3()
    ensures Expanded(G, Visited, Ref(3))
  {
    assert G[3] == N(3);
    HiddenClass(6);
    ClassClosed(G, Visited, 3, Ns + ".Good1", "Good1", Ns, true, false, Null, Ref(20), [], [Ref(4), Ref(5), Ref(6)]);
  }

  lemma Closed4()
    ensures Expanded(G, Visited, Ref(4))
  {
    assert G[4] == N(4);
    ClassClosed(G, Visited, 4, Ns + ".Good1/Good2", "Good2", "", false, true, Ref(3), Ref(20), [], []);
  }

  lemma Closed5()
    ensures Expanded(G, Visited, Ref(5))
  {
    assert G[5] == N(5);
    ClassClosed(G, Visited, 5, Ns + ".Good1/Good5", "Good5", "", false, false, Ref(3), Ref(20), [Ref(16)], []);
  }

  lemma Closed7()
    ensures Expanded(G, Visited, Ref(7))
  {
    assert G[7] == N(7);
    HiddenClass(10);
    ClassClosed(G, Visited, 7, Ns + ".Good8", "Good8", Ns, false, false, Null, Ref(20), [Ref(17)],
                [Ref(8), Ref(9), Ref(10)]);
  }

  lemma Closed8()
    ensures Expanded(G, Visited, Ref(8))
  {
    assert G[8] == N(8);
    ClassClosed(G, Visited, 8, Ns + ".Good8/Good9", "Good9", "", false, true, Ref(7), Ref(20), [], []);
  }

  lemma Closed9()
    ensures Expanded(G, Visited, Ref(9))
  {
    assert G[9] == N(9);
    ClassClosed(G, Visited, 9, Ns + ".Good8/Good12", "Good12", "", false, false, Ref(7), Ref(20), [Ref(18)], []);
  }

  lemma Closed15()
    ensures Expanded(G, Visited, Ref(15))
  {
    assert G[15] == N(15);
    ClassClosed(G, Visited, 15, UsedImplicitly, "UsedImplicitlyAttribute", "JetBrains.Annotations", false, false,
                Null, Ref(21), [], []);
  }

  lemma Closed0()
    ensures Expanded(G, Visited, Ref(0))
  {
    assert G[0] == N(0);
    ExpandAssembly(G, N(0));
  }

  /** A module is expanded in `c` when its assembly, entry point, attributes, references and public types are. */
  lemma ModuleClosed(g: Graph, c: set<Obj>, k: nat, n: Node)
    requires k in g && g[k] == n && n.kind == ModuleDefinition
    requires (One(n, Field.Assembly) == Null || One(n, Field.Assembly) in c) && (One(n, EntryPoint) == Null || One(n, EntryPoint) in c)
    requires forall y :: y in Many(n, CustomAttributes) + Many(n, ModuleReferences) ==> y in c
    requires forall y :: y in Many(n, Types) && IsPublic(g, y) ==> y in c
    ensures Expanded(g, c, Ref(k))
  {
    ExpandModule(g, n);
  }

  lemma Closed1()
    ensures Expanded(G, Visited, Ref(1))
  {
    var n := N(1);
    assert G[1] == n && One(n, Field.Assembly) == Ref(0) && One(n, EntryPoint) == Null;
    assert Many(n, CustomAttributes) + Many(n, ModuleReferences) == [];
    assert Many(n, Types) == [Ref(2), Ref(3), Ref(7), Ref(11), Ref(15)];
    HiddenClass(11);
    ModuleClosed(G, Visited, 1, n);
  }

  /** What the custom attribute overload walks on a `[UsedImplicitly]` instance: the attribute class only. */
  lemma MarkerExpand(g: Graph)
    ensures Expand(g, UsedImplicitlyInstance()) == [Ref(15), Null]
  {
    ExpandCustomAttribute(g, UsedImplicitlyInstance());
  }

  /** What the type reference overload walks on an imported type: the playground module only. */
  lemma ImportedExpand(g: Graph, fullName: string, name: string)
    ensures Expand(g, Imported(fullName, name)) == [Null, Ref(1)]
  {
    ExpandTypeReference(g, Imported(fullName, name));
  }

  lemma Closed16()
    ensures Expanded(G, Visited, Ref(16))
  {
    assert G[16] == UsedImplicitlyInstance();
    MarkerExpand(G);
  }

  lemma Closed17()
    ensures Expanded(G, Visited, Ref(17))
  {
    assert G[17] == UsedImplicitlyInstance();
    MarkerExpand(G);
  }

  lemma Closed18()
    ensures Expanded(G, Visited, Ref(18))
  {
    assert G[18] == UsedImplicitlyInstance();
    MarkerExpand(G);
  }

  lemma Closed20()
    ensures Expanded(G, Visited, Ref(20))
  {
    assert G[20] == Imported("System.Object", "Object");
    ImportedExpand(G, "System.Object", "Object");
  }

  lemma Closed21()
    ensures Expanded(G, Visited, Ref(21))
  {
    assert G[21] == Imported("System.Attribute", "Attribute");
    ImportedExpand(G, "System.Attribute", "Attribute");
  }

  /** Every object of `ys` has its successors null or in `c`. */
  ghost predicate ClosedOn(g: Graph, c: set<Obj>, ys: set<Obj>) {
    forall y :: y in ys ==> Expanded(g, c, y)
  }

  lemma StructureClosed()
    ensures ClosedOn(G, Visited, {Ref(0), Ref(1), Ref(2), Ref(3), Ref(4)})
  {
    Closed0();
    Closed1();
    Closed2();
    Closed3();
    Closed4();
  }

  lemma ClassesClosed()
    ensures ClosedOn(G, Visited, {Ref(5), Ref(7), Ref(8), Ref(9), Ref(15)})
  {
    Closed5();
    Closed7();
    Closed8();
    Closed9();
    Closed15();
  }

  lemma AttributesClosed()
    ensures ClosedOn(G, Visited, {Ref(16), Ref(17), Ref(18), Ref(20), Ref(21)})
  {
    Closed16();
    Closed17();
    Closed18();
    Closed20();
    Closed21();
  }

  lemma VisitedIsClosed()
    ensures forall y :: y in Visited ==> Expanded(G, Visited, y)
  {
    StructureClosed();
    ClassesClosed();
    AttributesClosed();
    forall y | y in Visited
      ensures Expanded(G, Visited, y)
    {
      if y in {Ref(0), Ref(1), Ref(2), Ref(3), Ref(4)} {
        assert ClosedOn(G, Visited, {Ref(0), Ref(1), Ref(2), Ref(3), Ref(4)});
      } else if y in {Ref(5), Ref(7), Ref(8), Ref(9), Ref(15)} {
        assert ClosedOn(G, Visited, {Ref(5), Ref(7), Ref(8), Ref(9), Ref(15)});
      } else {
        assert ClosedOn(G, Visited, {Ref(16), Ref(17), Ref(18), Ref(20), Ref(21)});
      }
    }
  }

  /** A set closed under the walked fields. */
  ghost predicate ClosedSet(g: Graph, h: set<Obj>) {
    forall y {:trigger Expanded(g, h, y)} :: y in h ==> Expanded(g, h, y)
  }

  /** A closed set holds every non-null successor of its members. */
  lemma Edge(g: Graph, h: set<Obj>, x: Obj, y: Obj)
    requires ClosedSet(g, h) && x in h
    requires y in Succ(g, x) && y != Null
    ensures y in h
  {
    assert Expanded(g, h, x);
  }

  lemma FromAssembly(h: set<Obj>)
    requires ClosedSet(G, h) && Ref(0) in h
    ensures Ref(1) in h
  {
    assert G[0] == N(0);
    ExpandAssembly(G, N(0));
    Edge(G, h, Ref(0), Ref(1));
  }

  lemma FromModule(h: set<Obj>)
    requires ClosedSet(G, h) && Ref(1) in h
    ensures Ref(2) in h && Ref(3) in h && Ref(7) in h
  {
    Visible(2);
    Visible(3);
    MarkedGood8();
    assert G[1] == N(1);
    ExpandModule(G, N(1));
    Edge(G, h, Ref(1), Ref(2));
    Edge(G, h, Ref(1), Ref(3));
    Edge(G, h, Ref(1), Ref(7));
  }

  /** A closed set holding a class holds its base type. */
  lemma BaseEdge(g: Graph, h: set<Obj>, k: nat, n: Node)
    requires ClosedSet(g, h) && Ref(k) in h && k in g && g[k] == n && n.kind == TypeDefinition
    requires One(n, BaseType) != Null
    ensures One(n, BaseType) in h
  {
    ExpandTypeDefinition(g, n);
    Edge(g, h, Ref(k), One(n, BaseType));
  }

  /** A closed set holding a class holds the class's attributes. */
  lemma AttributeEdge(g: Graph, h: set<Obj>, k: nat, n: Node, y: Obj)
    requires ClosedSet(g, h) && Ref(k) in h && k in g && g[k] == n && n.kind == TypeDefinition
    requires y != Null && y in Many(n, CustomAttributes)
    ensures y in h
  {
    ExpandTypeDefinition(g, n);
    Edge(g, h, Ref(k), y);
  }

  /** A closed set holding a class holds the class's public nested types. */
  lemma NestedEdge(g: Graph, h: set<Obj>, k: nat, n: Node, y: Obj)
    requires ClosedSet(g, h) && Ref(k) in h && k in g && g[k] == n && n.kind == TypeDefinition
    requires y != Null && y in Many(n, NestedTypes) && IsPublic(g, y)
    ensures y in h
  {
    ExpandTypeDefinition(g, n);
    Edge(g, h, Ref(k), y);
  }

  lemma FromGood1(h: set<Obj>)
    requires ClosedSet(G, h) && Ref(3) in h
    ensures Ref(4) in h && Ref(5) in h && Ref(20) in h
  {
    Visible(4);
    MarkedGood5();
    var n := N(3);
    assert G[3] == n && Many(n, NestedTypes) == [Ref(4), Ref(5), Ref(6)] && One(n, BaseType) == Ref(20);
    NestedEdge(G, h, 3, n, Ref(4));
    NestedEdge(G, h, 3, n, Ref(5));
    BaseEdge(G, h, 3, n);
  }

  lemma FromGood8(h: set<Obj>)
    requires ClosedSet(G, h) && Ref(7) in h
    ensures Ref(8) in h && Ref(9) in h && Ref(17) in h
  {
    Visible(8);
    MarkedGood12();
    var n := N(7);
    assert G[7] == n;
    NestedEdge(G, h, 7, n, Ref(8));
    NestedEdge(G, h, 7, n, Ref(9));
    AttributeEdge(G, h, 7, n, Ref(17));
  }

  lemma FromGood5(h: set<Obj>)
    requires ClosedSet(G, h) && Ref(5) in h
    ensures Ref(16) in h
  {
    var n := N(5);
    assert G[5] == n && Many(n, CustomAttributes) == [Ref(16)];
    AttributeEdge(G, h, 5, n, Ref(16));
  }

  lemma FromGood12(h: set<Obj>)
    requires ClosedSet(G, h) && Ref(9) in h
    ensures Ref(18) in h
  {
    var n := N(9);
    assert G[9] == n && Many(n, CustomAttributes) == [Ref(18)];
    AttributeEdge(G, h, 9, n, Ref(18));
  }

  lemma FromMarker(h: set<Obj>)
    requires ClosedSet(G, h) && Ref(16) in h
    ensures Ref(15) in h
  {
    assert G[16] == N(16);
    ExpandCustomAttribute(G, N(16));
    Edge(G, h, Ref(16), Ref(15));
  }

  lemma FromAttributeClass(h: set<Obj>)
    requires ClosedSet(G, h) && Ref(15) in h
    ensures Ref(21) in h
  {
    var n := N(15);
    assert G[15] == n && One(n, BaseType) == Ref(21);
    BaseEdge(G, h, 15, n);
  }

  /** A closed set holding the assembly holds every object the walk visits. */
  lemma ClosedHoldsVisited(h: set<Obj>)
    requires ClosedSet(G, h) && Ref(0) in h
    ensures Visited <= h
  {
    FromAssembly(h);
    FromModule(h);
    FromGood1(h);
    FromGood8(h);
    FromGood5(h);
    FromGood12(h);
    FromMarker(h);
    FromAttributeClass(h);
  }

  /** The walk from the assembly records exactly the objects of Visited. */
  lemma WalkedIsVisited()
    ensures Walked(Asm, None).hash == Visited
  {
    var w := Walked(Asm, None);
    assert ClosedSet(G, w.hash);
    ClosedHoldsVisited(w.hash);
    VisitedIsClosed();
    WalkStaysWithin(G, New(None), Ref(0), Visited);
  }

  /** A type of the fixture as the module's type collection holds it; the fixture's types have no members. */
  function Type(id: nat, fullName: string, name: string, ns: string, nested: seq<TypeNode>): TypeNode {
    TypeNode(id, fullName, name, ns, [], nested)
  }

  const Good2 := Type(4, Ns + ".Good1/Good2", "Good2", "", [])
  const Good5 := Type(5, Ns + ".Good1/Good5", "Good5", "", [])
  const Bad3 := Type(6, Ns + ".Good1/Bad3", "Bad3", "", [])
  const Good9 := Type(8, Ns + ".Good8/Good9", "Good9", "", [])
  const Good12 := Type(9, Ns + ".Good8/Good12", "Good12", "", [])
  const Bad9 := Type(10, Ns + ".Good8/Bad9", "Bad9", "", [])
  const Bad15 := Type(12, Ns + ".Bad14/Bad15", "Bad15", "", [])
  const Bad19 := Type(13, Ns + ".Bad14/Bad19", "Bad19", "", [])
  const Bad23 := Type(14, Ns + ".Bad14/Bad23", "Bad23", "", [])
  const ModuleType := Type(2, ModuleName, ModuleName, "", [])
  const Good1 := Type(3, Ns + ".Good1", "Good1", Ns, [Good2, Good5, Bad3])
  const Good8 := Type(7, Ns + ".Good8", "Good8", Ns, [Good9, Good12, Bad9])
  const Bad14 := Type(11, Ns + ".Bad14", "Bad14", Ns, [Bad15, Bad19, Bad23])
  const AttributeClass := Type(15, UsedImplicitly, "UsedImplicitlyAttribute", "JetBrains.Annotations", [])

  /** The module's top-level types with their nested types, in declaration order. */
  const Tree: seq<TypeNode> := [ModuleType, Good1, Good8, Bad14, AttributeClass]

  /** Each type of the tree carries the names of its definition in the graph. */
  predicate Mirrors(t: TypeNode) {
    t.id in G && G[t.id].kind == TypeDefinition
      && t.fullName == G[t.id].fullName && t.name == G[t.id].name && t.ns == G[t.id].ns
  }

  /** A type mirrors its definition when its names are those of the fixture's node with the same id. */
  lemma Mirror(t: TypeNode)
    requires 0 <= t.id < 22 && N(t.id).kind == TypeDefinition
    requires t.fullName == N(t.id).fullName && t.name == N(t.id).name && t.ns == N(t.id).ns
    ensures Mirrors(t)
  {
    assert G[t.id] == N(t.id);
  }

  lemma Good1Mirrors()
    ensures Mirrors(Good1) && Mirrors(Good2) && Mirrors(Good5) && Mirrors(Bad3)
  {
    Mirror(Good1);
    Mirror(Good2);
    Mirror(Good5);
    Mirror(Bad3);
  }

  lemma Good8Mirrors()
    ensures Mirrors(Good8) && Mirrors(Good9) && Mirrors(Good12) && Mirrors(Bad9)
  {
    Mirror(Good8);
    Mirror(Good9);
    Mirror(Good12);
    Mirror(Bad9);
  }

  lemma Bad14Mirrors()
    ensures Mirrors(Bad14) && Mirrors(Bad15) && Mirrors(Bad19) && Mirrors(Bad23)
  {
    Mirror(Bad14);
    Mirror(Bad15);
    Mirror(Bad19);
    Mirror(Bad23);
  }

  lemma TopMirrors()
    ensures Mirrors(ModuleType) && Mirrors(AttributeClass)
  {
    Mirror(ModuleType);
    Mirror(AttributeClass);
  }

  /** `u` is a type definition of `g` declared by `container`. */
  predicate Declared(g: Graph, u: TypeNode, container: nat) {
    u.id in g && g[u.id].kind == TypeDefinition && One(g[u.id], DeclaringType) == Ref(container)
  }

  /** `t`'s nested types are declared by `t` and nest in turn. */
  predicate NestsUnder(g: Graph, t: TypeNode) {
    (forall u :: u in t.nested ==> Declared(g, u, t.id)) && Nests(g, t.nested)
  }

  /** Nests, one type at a time. */
  lemma NestsCons(g: Graph, t: TypeNode, rest: seq<TypeNode>)
    requires NestsUnder(g, t) && Nests(g, rest)
    ensures Nests(g, [t] + rest)
  {
    assert ([t] + rest)[0] == t && ([t] + rest)[1..] == rest;
  }

  /** A type without nested types nests. */
  lemma NestsLeaf(g: Graph, t: TypeNode)
    requires t.nested == []
    ensures NestsUnder(g, t)
  {
  }

  /** A container of three nested types without nested types of their own. */
  lemma NestsLeaves(g: Graph, t: TypeNode, a: TypeNode, b: TypeNode, c: TypeNode)
    requires t.nested == [a, b, c] && a.nested == [] && b.nested == [] && c.nested == []
    requires Declared(g, a, t.id) && Declared(g, b, t.id) && Declared(g, c, t.id)
    ensures NestsUnder(g, t)
  {
    NestsLeaf(g, a);
    NestsLeaf(g, b);
    NestsLeaf(g, c);
    NestsCons(g, c, []);
    assert [c] + [] == [c];
    NestsCons(g, b, [c]);
    assert [b] + [c] == [b, c];
    NestsCons(g, a, [b, c]);
    assert [a] + [b, c] == [a, b, c];
  }

  lemma Good1Children()
    ensures Declared(G, Good2, 3) && Declared(G, Good5, 3) && Declared(G, Bad3, 3)
  {
    assert G[4] == N(4) && G[5] == N(5) && G[6] == N(6);
  }

  lemma Good8Children()
    ensures Declared(G, Good9, 7) && Declared(G, Good12, 7) && Declared(G, Bad9, 7)
  {
    assert G[8] == N(8) && G[9] == N(9) && G[10] == N(10);
  }

  lemma Bad14Children()
    ensures Declared(G, Bad15, 11) && Declared(G, Bad19, 11) && Declared(G, Bad23, 11)
  {
    assert G[12] == N(12) && G[13] == N(13) && G[14] == N(14);
  }

  /** Five top-level types nest when each one's nested types do. */
  lemma NestsFive(g: Graph, a: TypeNode, b: TypeNode, c: TypeNode, d: TypeNode, e: TypeNode)
    requires a.nested == [] && e.nested == []
    requires NestsUnder(g, b) && NestsUnder(g, c) && NestsUnder(g, d)
    ensures Nests(g, [a, b, c, d, e])
  {
    NestsLeaf(g, a);
    NestsLeaf(g, e);
    NestsCons(g, e, []);
    assert [e] + [] == [e];
    NestsCons(g, d, [e]);
    assert [d] + [e] == [d, e];
    NestsCons(g, c, [d, e]);
    assert [c] + [d, e] == [c, d, e];
    NestsCons(g, b, [c, d, e]);
    assert [b] + [c, d, e] == [b, c, d, e];
    NestsCons(g, a, [b, c, d, e]);
    assert [a] + [b, c, d, e] == [a, b, c, d, e];
  }

  /** The tree nests as Cecil nests it: each nested type's DeclaringType is its container. */
  lemma TreeNests()
    ensures Nests(G, Tree)
  {
    Good1Children();
    Good8Children();
    Bad14Children();
    NestsLeaves(G, Good1, Good2, Good5, Bad3);
    NestsLeaves(G, Good8, Good9, Good12, Bad9);
    NestsLeaves(G, Bad14, Bad15, Bad19, Bad23);
    NestsFive(G, ModuleType, Good1, Good8, Bad14, AttributeClass);
  }

  const Asm: Assembly := WalkExtensions.Assembly.Assembly(G, 0, [ModuleTypes(1, Tree)])

  /** One step of Mutate on a kept head, written on `[t] + rest`. */
  lemma KeptCons(w: Walkies, t: TypeNode, rest: seq<TypeNode>)
    requires AnyEqual(w, t)
    ensures var inner := Mutate(w, t.nested); var m := Mutate(w, rest);
      Mutate(w, [t] + rest) == Mutation([t.(nested := inner.remaining)] + m.remaining, m.unused,
                                        Removed(inner) + m.nestedUnused)
  {
    assert ([t] + rest)[0] == t && ([t] + rest)[1..] == rest;
    KeptStep(w, [t] + rest);
  }

  /** One step of Mutate on a removed head, written on `[t] + rest`. */
  lemma DroppedCons(w: Walkies, t: TypeNode, rest: seq<TypeNode>)
    requires !AnyEqual(w, t)
    ensures var m := Mutate(w, rest); Mutate(w, [t] + rest) == Mutation(m.remaining, [t] + m.unused, m.nestedUnused)
  {
    assert ([t] + rest)[0] == t && ([t] + rest)[1..] == rest;
    DroppedStep(w, [t] + rest);
  }

  /** Without exemptions a type survives exactly when it was visited. */
  lemma NoExemptions(w: Walkies, t: TypeNode)
    requires w.except == []
    ensures AnyEqual(w, t) <==> Ref(t.id) in w.hash
  {
  }

  /** A kept type without nested types, alone. */
  lemma KeptAlone(w: Walkies, t: TypeNode)
    requires AnyEqual(w, t) && t.nested == []
    ensures Mutate(w, [t]) == Mutation([t], [], [])
  {
    assert [t][1..] == [];
    KeptStep(w, [t]);
    assert t.(nested := []) == t && [t] + [] == [t];
  }

  /** A kept type without nested types, in front of a swept rest. */
  lemma KeptLeaf(w: Walkies, t: TypeNode, rest: seq<TypeNode>)
    requires AnyEqual(w, t) && t.nested == []
    ensures var m := Mutate(w, rest); Mutate(w, [t] + rest) == Mutation([t] + m.remaining, m.unused, m.nestedUnused)
  {
    KeptCons(w, t, rest);
    assert Mutate(w, []) == Mutation([], [], []);
    assert t.(nested := []) == t;
  }

  /** Three leaves of which the last is removed, as a right-nested list. */
  lemma SweepLastOfThree(w: Walkies, a: TypeNode, b: TypeNode, c: TypeNode)
    requires a.nested == [] && b.nested == [] && c.nested == []
    requires AnyEqual(w, a) && AnyEqual(w, b) && !AnyEqual(w, c)
    ensures Mutate(w, [a] + ([b] + [c])) == Mutation([a] + ([b] + []), [c] + [], [])
  {
    assert Mutate(w, []) == Mutation([], [], []);
    assert [c] == [c] + [];
    DroppedCons(w, c, []);
    KeptLeaf(w, b, [c]);
    KeptLeaf(w, a, [b] + [c]);
  }

  /**
   * The shape of the playground's sweep, as right-nested lists: of the five
   * top-level types the fourth goes, and the two kept containers are swept
   * in turn.
   */
  lemma SweepTop(w: Walkies, t2: TypeNode, t3: TypeNode, t7: TypeNode, t11: TypeNode, t15: TypeNode)
    requires t2.nested == [] && t15.nested == []
    requires AnyEqual(w, t2) && AnyEqual(w, t3) && AnyEqual(w, t7) && !AnyEqual(w, t11) && AnyEqual(w, t15)
    ensures var i3 := Mutate(w, t3.nested); var i7 := Mutate(w, t7.nested);
      Mutate(w, [t2] + ([t3] + ([t7] + ([t11] + [t15]))))
        == Mutation([t2] + ([t3.(nested := i3.remaining)] + ([t7.(nested := i7.remaining)] + [t15])),
                    [t11], Removed(i3) + (Removed(i7) + []))
  {
    KeptAlone(w, t15);
    DroppedCons(w, t11, [t15]);
    assert [t11] + [] == [t11];
    KeptCons(w, t7, [t11] + [t15]);
    KeptCons(w, t3, [t7] + ([t11] + [t15]));
    KeptLeaf(w, t2, [t3] + ([t7] + ([t11] + [t15])));
  }

  /** The types the visited set keeps. */
  lemma KeptTypes(w: Walkies)
    requires w.hash == Visited && w.except == []
    ensures AnyEqual(w, ModuleType) && AnyEqual(w, Good1) && AnyEqual(w, Good2) && AnyEqual(w, Good5)
    ensures AnyEqual(w, Good8) && AnyEqual(w, Good9) && AnyEqual(w, Good12) && AnyEqual(w, AttributeClass)
  {
    NoExemptions(w, ModuleType);
    NoExemptions(w, Good1);
    NoExemptions(w, Good2);
    NoExemptions(w, Good5);
    NoExemptions(w, Good8);
    NoExemptions(w, Good9);
    NoExemptions(w, Good12);
    NoExemptions(w, AttributeClass);
  }

  /** The types the visited set does not keep. */
  lemma RemovedTypes(w: Walkies)
    requires w.hash == Visited && w.except == []
    ensures !AnyEqual(w, Bad3) && !AnyEqual(w, Bad9) && !AnyEqual(w, Bad14)
  {
    NoExemptions(w, Bad3);
    NoExemptions(w, Bad9);
    NoExemptions(w, Bad14);
  }

  lemma Flatten3(a: TypeNode, b: TypeNode, c: TypeNode)
    ensures [a] + ([b] + [c]) == [a, b, c]
  {
  }

  lemma Flatten4(a: TypeNode, b: TypeNode, c: TypeNode, d: TypeNode)
    ensures [a] + ([b] + ([c] + [d])) == [a, b, c, d]
  {
  }

  lemma Flatten5(a: TypeNode, b: TypeNode, c: TypeNode, d: TypeNode, e: TypeNode)
    ensures [a] + ([b] + ([c] + ([d] + [e]))) == [a, b, c, d, e]
  {
  }

  /** A container whose last nested type is the only one removed. */
  lemma NestedSwept(w: Walkies, t: TypeNode, a: TypeNode, b: TypeNode, c: TypeNode)
    requires t.nested == [a, b, c] && a.nested == [] && b.nested == [] && c.nested == []
    requires AnyEqual(w, a) && AnyEqual(w, b) && !AnyEqual(w, c)
    ensures Mutate(w, t.nested) == Mutation([a, b], [c], [])
  {
    Flatten3(a, b, c);
    SweepLastOfThree(w, a, b, c);
    assert [a] + ([b] + []) == [a, b] && [c] + [] == [c];
  }

  /**
   * The shape of the playground's sweep at the top: of five types the fourth
   * goes, and the second and third keep what their own sweeps left.
   */
  lemma SweepShape(w: Walkies, t2: TypeNode, t3: TypeNode, t7: TypeNode, t11: TypeNode, t15: TypeNode,
                   r3: seq<TypeNode>, u3: TypeNode, r7: seq<TypeNode>, u7: TypeNode)
    requires t2.nested == [] && t15.nested == []
    requires AnyEqual(w, t2) && AnyEqual(w, t3) && AnyEqual(w, t7) && !AnyEqual(w, t11) && AnyEqual(w, t15)
    requires Mutate(w, t3.nested) == Mutation(r3, [u3], [])
    requires Mutate(w, t7.nested) == Mutation(r7, [u7], [])
    ensures Mutate(w, [t2, t3, t7, t11, t15])
      == Mutation([t2, t3.(nested := r3), t7.(nested := r7), t15], [t11], [u3, u7])
  {
    var i3, i7 := Mutate(w, t3.nested), Mutate(w, t7.nested);
    assert i3.remaining == r3 && Removed(i3) == [u3];
    assert i7.remaining == r7 && Removed(i7) == [u7];
    Flatten5(t2, t3, t7, t11, t15);
    SweepTop(w, t2, t3, t7, t11, t15);
    Flatten4(t2, t3.(nested := r3), t7.(nested := r7), t15);
    assert [u3] + ([u7] + []) == [u3, u7];
  }

  /** Mutate on the playground module with the visited set. */
  lemma PlaygroundMutate(w: Walkies)
    requires w.hash == Visited && w.except == []
    ensures Mutate(w, Tree) == Mutation(
      [ModuleType, Good1.(nested := [Good2, Good5]), Good8.(nested := [Good9, Good12]), AttributeClass],
      [Bad14], [Bad3, Bad9])
  {
    KeptTypes(w);
    RemovedTypes(w);
    NestedSwept(w, Good1, Good2, Good5, Bad3);
    NestedSwept(w, Good8, Good9, Good12, Bad9);
    SweepShape(w, ModuleType, Good1, Good8, Bad14, AttributeClass, [Good2, Good5], Bad3, [Good9, Good12], Bad9);
  }

  /** Trim of a single-module assembly: one Mutate of its types, logged after the exemptions. */
  lemma TrimOneModule(asm: Assembly, except: Option<seq<Option<string>>>)
    requires |asm.modules| == 1
    ensures var w := Walked(asm, except); var m := Mutate(w, asm.modules[0].types); var r := Trim(asm, except);
      && r.asm.modules == [ModuleTypes(asm.modules[0].id, m.remaining)]
      && r.removed == Removed(m)
      && r.log == Display(w) + BegoneLines(Removed(m))
  {
    var w := Walked(asm, except);
    var m := Mutate(w, asm.modules[0].types);
    assert asm.modules[1..] == [];
    assert SweepModules(w, asm.modules[1..]) == ([], []);
    assert SweepModules(w, asm.modules).1 == Removed(m) + [];
  }

  /** Trim of an assembly holding the playground module whose walk visits exactly Visited. */
  lemma TrimVisited(asm: Assembly)
    requires asm.modules == [ModuleTypes(1, Tree)] && Walked(asm, None).hash == Visited
    ensures var r := Trim(asm, None);
      && r.asm.modules == [ModuleTypes(1, [ModuleType, Good1.(nested := [Good2, Good5]),
                                             Good8.(nested := [Good9, Good12]), AttributeClass])]
      && r.removed == [Bad14, Bad3, Bad9]
      && r.log == [BegoneLine(Ns + ".Bad14"), BegoneLine(Ns + ".Good1/Bad3"), BegoneLine(Ns + ".Good8/Bad9")]
  {
    var w := Walked(asm, None);
    assert w.except == [];
    PlaygroundMutate(w);
    TrimOneModule(asm, None);
    assert Display(w) == [];
    RemovedNames();
  }

  /** The full names of the removed types. */
  lemma RemovedNames()
    ensures BegoneLines([Bad14, Bad3, Bad9])
      == [BegoneLine(Ns + ".Bad14"), BegoneLine(Ns + ".Good1/Bad3"), BegoneLine(Ns + ".Good8/Bad9")]
  {
  }

  /**
   * Trimming the playground without exemptions removes Bad14 (with its
   * nested types), Bad3 and Bad9, logs exactly those, and leaves the Good
   * classes, `<Module>` and the attribute class.
   */
  lemma PlaygroundTrim()
    ensures var r := Trim(Asm, None);
      && r.asm.modules == [ModuleTypes(1, [ModuleType, Good1.(nested := [Good2, Good5]),
                                             Good8.(nested := [Good9, Good12]), AttributeClass])]
      && r.removed == [Bad14, Bad3, Bad9]
      && r.log == [BegoneLine(Ns + ".Bad14"), BegoneLine(Ns + ".Good1/Bad3"), BegoneLine(Ns + ".Good8/Bad9")]
  {
    WalkedIsVisited();
    TrimVisited(Asm);
  }
}

=== FILE: policy.dfy ===
/**
 * The keep policy of Walkies.cs: which objects count as public (and so seed the
 * walk from a module's or a type's type collection), and how the exemption
 * strings are read.
 */
module Policy {
  import opened Wrappers
  import opened Cecil
  import opened Seqs

  const Generated := "System.Runtime.CompilerServices.CompilerGeneratedAttribute"
  const MeansImplicitUse := "JetBrains.Annotations.MeansImplicitUseAttribute"
  const UsedImplicitly := "JetBrains.Annotations.UsedImplicitlyAttribute"

  const ModuleName := "<Module>"
  const Main := "Program.Main"
  const ImplicitMain := "Program.<Main>$"
  const IsExternalInit := "System.Runtime.CompilerServices.IsExternalInit"
  const ProgramName := "Program"

  const ProcessedSuffix := "ProcessedByFody"

  /** The three attribute classes that mark their bearer as used. */
  predicate IsMarker(attributeTypeName: string) {
    attributeTypeName in {Generated, MeansImplicitUse, UsedImplicitly}
  }

  /** The full names that always count as public. */
  predicate IsWellKnown(fullName: string) {
    fullName in {ImplicitMain, IsExternalInit, Main, ModuleName, ProgramName}
  }

  /** Suffix test, compared character by character. */
  predicate EndsWith(s: string, suffix: string) {
    |suffix| <= |s| && s[|s| - |suffix|..] == suffix
  }

  /** `attribute.AttributeType?.FullName`: None when the attribute or its type is null or unknown. */
  function AttributeTypeName(g: Graph, attribute: Obj): (r: Option<string>)
    ensures r.Some? ==> attribute.Ref? && attribute.id in g
  {
    if attribute.Ref? && attribute.id in g then
      var t := One(g[attribute.id], AttributeType);
      if t.Ref? && t.id in g then Some(g[t.id].fullName) else None
    else None
  }

  /** IsImplicit: the attribute's type is one of the three markers. */
  predicate IsImplicit(g: Graph, attribute: Obj) {
    var t := AttributeTypeName(g, attribute);
    t.Some? && IsMarker(t.value)
  }

  /** AnyImplicit: some custom attribute of the node is a marker. */
  predicate AnyImplicit(g: Graph, n: Node) {
    exists a :: a in Many(n, CustomAttributes) && IsImplicit(g, a)
  }

  /**
   * IsPublic: whether a member seeds the walk when it sits in a module's
   * `Types` or a type's `NestedTypes`. Null is never public; any object the
   * switch has no arm for is.
   */
  predicate IsPublic(g: Graph, member: Obj) {
    Public(g, member, true)
  }

  /**
   * The switch of IsPublic. `outer` is false while the accessors of an event or
   * a property are tested: Cecil types those as MethodDefinitions, so the
   * nested evaluation never meets an event or property; if it did, the
   * `outer &&` guard answers "not public" rather than recurse further.
   */
  predicate Public(g: Graph, member: Obj, outer: bool)
    decreases outer, 2
  {
    match member
    case Null => false
    case Ref(id) => id !in g || NodePublic(g, id, outer)
    case _ => true
  }

  predicate NodePublic(g: Graph, id: nat, outer: bool)
    requires id in g
    decreases outer, 1
  {
    var n := g[id];
    if IsAttributeProvider(n.kind) && AnyImplicit(g, n) then true
    else if IsCustomAttribute(n.kind) && IsImplicit(g, Ref(id)) then true
    else if IsMemberReference(n.kind) && IsWellKnown(n.fullName) then true
    else if IsMemberReference(n.kind) && EndsWith(n.fullName, ProcessedSuffix) then true
    else match n.kind
      case EventDefinition =>
        outer && AnyPublic(g, [One(n, AddMethod), One(n, InvokeMethod), One(n, RemoveMethod)], Many(n, OtherMethods))
      case FieldDefinition => n.isPublic
      case MethodDefinition => n.isPublic || n.isConstructor || n.baseMethod != Ref(id)
      case PropertyDefinition =>
        outer && AnyPublic(g, [One(n, GetMethod), One(n, SetMethod)], Many(n, OtherMethods))
      case TypeDefinition => n.isPublic || n.isNestedPublic
      case _ => true
  }

  /** AnyPublic over single accessors and one accessor collection. */
  predicate AnyPublic(g: Graph, accessors: seq<Obj>, others: seq<Obj>)
    decreases false, 3
  {
    (exists m :: m in accessors && Public(g, m, false)) || (exists m :: m in others && Public(g, m, false))
  }

  /** Null is never public, and a value that is not a Cecil object always is. */
  lemma NullNeverPublic(g: Graph, x: Obj)
    ensures x == Null ==> !IsPublic(g, x)
    ensures x != Null && !x.Ref? ==> IsPublic(g, x)
  {
  }

  /** A node carrying an implicit-use marker is public, whatever its class or its flags. */
  lemma MarkerMakesPublic(g: Graph, id: nat, a: Obj)
    requires id in g && IsAttributeProvider(g[id].kind)
    requires a in Many(g[id], CustomAttributes) && IsImplicit(g, a)
    ensures IsPublic(g, Ref(id))
  {
  }

  /** A member with a well-known full name, or one ending with the weaver's suffix, is public. */
  lemma SpecialNamesPublic(g: Graph, id: nat)
    requires id in g && IsMemberReference(g[id].kind)
    requires IsWellKnown(g[id].fullName) || EndsWith(g[id].fullName, ProcessedSuffix)
    ensures IsPublic(g, Ref(id))
  {
  }

  /**
   * The per-class rules, for a node that neither carries a marker nor has a
   * special name: a field by its flag, a method by its flag, as a constructor
   * or as an override, a type by either visibility flag, an event or a
   * property through its accessors, and everything else always.
   */
  lemma KindRules(g: Graph, id: nat)
    requires id in g
    requires !(IsAttributeProvider(g[id].kind) && AnyImplicit(g, g[id]))
    requires !(IsCustomAttribute(g[id].kind) && IsImplicit(g, Ref(id)))
    requires !(IsMemberReference(g[id].kind) && (IsWellKnown(g[id].fullName) || EndsWith(g[id].fullName, ProcessedSuffix)))
    ensures var n := g[id];
      && (n.kind == FieldDefinition ==> (IsPublic(g, Ref(id)) <==> n.isPublic))
      && (n.kind == MethodDefinition ==>
            (IsPublic(g, Ref(id)) <==> n.isPublic || n.isConstructor || n.baseMethod != Ref(id)))
      && (n.kind == TypeDefinition ==> (IsPublic(g, Ref(id)) <==> n.isPublic || n.isNestedPublic))
      && (n.kind == EventDefinition ==> (IsPublic(g, Ref(id)) <==>
            AnyPublic(g, [One(n, AddMethod), One(n, InvokeMethod), One(n, RemoveMethod)], Many(n, OtherMethods))))
      && (n.kind == PropertyDefinition ==> (IsPublic(g, Ref(id)) <==>
            AnyPublic(g, [One(n, GetMethod), One(n, SetMethod)], Many(n, OtherMethods))))
      && (n.kind !in {FieldDefinition, MethodDefinition, TypeDefinition, EventDefinition, PropertyDefinition} ==>
            IsPublic(g, Ref(id)))
  {
  }

  /** `Where(IsPublic)` over a type collection. */
  function PublicOnly(g: Graph, members: seq<Obj>): (r: seq<Obj>)
    ensures forall m :: m in r <==> m in members && IsPublic(g, m)
  {
    Filter(m => IsPublic(g, m), members)
  }

  /** char.IsWhiteSpace: the Unicode White_Space characters. */
  predicate IsWhiteSpace(c: char) {
    || '\t' <= c <= '\r'
    || c in {' ', '\U{85}', '\U{A0}', '\U{1680}', '\U{2028}', '\U{2029}', '\U{202F}', '\U{205F}', '\U{3000}'}
    || '\U{2000}' <= c <= '\U{200A}'
  }

  /** string.IsNullOrWhiteSpace. */
  predicate IsNullOrWhiteSpace(s: Option<string>) {
    s.None? || forall i :: 0 <= i < |s.value| ==> IsWhiteSpace(s.value[i])
  }

  /**
   * The exemption set the constructor builds: the entries that are neither
   * null nor blank, each once, in the order the set first received them.
   * A null argument gives the empty set.
   */
  function Exemptions(except: Option<seq<Option<string>>>): (r: seq<string>)
    ensures Distinct(r)
    ensures forall s :: s in r <==> except.Some? && Some(s) in except.value && !IsNullOrWhiteSpace(Some(s))
  {
    if except.None? then [] else Insert(except.value)
  }

  /** The HashSet after adding every non-blank entry, in insertion order. */
  function Insert(entries: seq<Option<string>>): (r: seq<string>)
    ensures Distinct(r)
    ensures forall s :: s in r <==> Some(s) in entries && !IsNullOrWhiteSpace(Some(s))
  {
    if entries == [] then []
    else
      var prefix := entries[..|entries| - 1];
      var last := entries[|entries| - 1];
      assert entries == prefix + [last];
      var r := Insert(prefix);
      if IsNullOrWhiteSpace(last) || last.value in r then r else r + [last.value]
  }

  /** A blank entry can never be in the set, so it never exempts a type of the global namespace. */
  lemma BlankNeverExempts(except: Option<seq<Option<string>>>, s: string)
    requires IsNullOrWhiteSpace(Some(s))
    ensures s !in Exemptions(except)
  {
  }
}

=== FILE: seqs.dfy ===
/** Sequence helpers standing in for the LINQ operators the source chains. */
module Seqs {

  predicate Distinct<T(==)>(s: seq<T>) {
    forall i, j :: 0 <= i < j < |s| ==> s[i] != s[j]
  }

  /** `Where(p)`: the elements satisfying `p`, in their original order. */
  function Filter<T(!new)>(p: T -> bool, s: seq<T>): (r: seq<T>)
    ensures |r| <= |s|
    ensures forall x :: x in r <==> x in s && p(x)
  {
    if s == [] then []
    else if p(s[0]) then [s[0]] + Filter(p, s[1..])
    else Filter(p, s[1..])
  }
}

=== FILE: sweep.dfy ===
/**
 * The sweep (Walkies.Mutate): split a type collection into the types to keep
 * and the rest, remove the rest, recurse into the kept types' nested types
 * only, and report the removed types followed by the nested removals.
 */
module Sweep {
  import opened Cecil
  import opened Seqs
  import opened Walkies

  /**
   * The outcome of one Mutate call: the collection after the removals (kept
   * types, whose own nested collections have been swept in turn), the types
   * removed from this collection, and the removals reported by the kept
   * types' nested collections.
   */
  datatype Mutation = Mutation(remaining: seq<TypeNode>, unused: seq<TypeNode>, nestedUnused: seq<TypeNode>)

  /** The enumeration Mutate returns: `unused.Concat(nestedUnused)`. */
  function Removed(m: Mutation): seq<TypeNode> {
    m.unused + m.nestedUnused
  }

  /** `SplitBy(AnyEqual)`, the part that satisfies it. */
  function Used(w: Walkies, c: seq<TypeNode>): (r: seq<TypeNode>)
    ensures forall t :: t in r <==> t in c && AnyEqual(w, t)
  {
    Filter(t => AnyEqual(w, t), c)
  }

  /** `SplitBy(AnyEqual)`, the part that fails it. */
  function Unused(w: Walkies, c: seq<TypeNode>): (r: seq<TypeNode>)
    ensures forall t :: t in r <==> t in c && !AnyEqual(w, t)
  {
    Filter(t => !AnyEqual(w, t), c)
  }

  /** A type with its nested collection left out: everything Mutate must not change. */
  function Strip(t: TypeNode): TypeNode {
    t.(nested := [])
  }

  /** Every type of the tree, nested ones included, satisfies AnyEqual. */
  predicate AllKept(w: Walkies, c: seq<TypeNode>)
    decreases c
  {
    c == [] || (AnyEqual(w, c[0]) && AllKept(w, c[0].nested) && AllKept(w, c[1..]))
  }

  /** The ids of every type of the tree, nested ones included. */
  function IdBag(c: seq<TypeNode>): multiset<nat>
    decreases c
  {
    if c == [] then multiset{} else multiset{c[0].id} + IdBag(c[0].nested) + IdBag(c[1..])
  }

  /**
   * Mutate: the kept types stay, in order, each with its nested collection
   * swept; the others are removed and reported before the nested removals.
   */
  function Mutate(w: Walkies, c: seq<TypeNode>): (m: Mutation)
    ensures forall t :: t in Removed(m) ==> !AnyEqual(w, t)
    decreases c
  {
    if c == [] then Mutation([], [], [])
    else
      var t := c[0];
      var rest := Mutate(w, c[1..]);
      if AnyEqual(w, t) then
        var inner := Mutate(w, t.nested);
        Mutation([t.(nested := inner.remaining)] + rest.remaining, rest.unused, Removed(inner) + rest.nestedUnused)
      else
        Mutation(rest.remaining, [t] + rest.unused, rest.nestedUnused)
  }

  /** The types removed from the collection itself are exactly those failing AnyEqual, in their order. */
  lemma {:induction false} MutateUnused(w: Walkies, c: seq<TypeNode>)
    ensures Mutate(w, c).unused == Unused(w, c)
    decreases c
  {
    if c != [] {
      MutateUnused(w, c[1..]);
      if AnyEqual(w, c[0]) {
        KeptStep(w, c);
      } else {
        DroppedStep(w, c);
      }
    }
  }

  /**
   * The types left in the collection are the ones that satisfy AnyEqual, in
   * their original order and otherwise unchanged but for their nested
   * collections, and every type left anywhere in the tree satisfies it.
   */
  lemma {:induction false} MutateKeeps(w: Walkies, c: seq<TypeNode>)
    ensures var m := Mutate(w, c);
      && |m.remaining| == |Used(w, c)|
      && (forall i :: 0 <= i < |m.remaining| ==> Strip(m.remaining[i]) == Strip(Used(w, c)[i]))
      && AllKept(w, m.remaining)
    decreases c
  {
    if c != [] {
      var t := c[0];
      MutateKeeps(w, c[1..]);
      if AnyEqual(w, t) {
        MutateKeeps(w, t.nested);
        KeptStep(w, c);
        assert Used(w, c) == [t] + Used(w, c[1..]);
      } else {
        DroppedStep(w, c);
        assert Used(w, c) == Used(w, c[1..]);
      }
    }
  }

  /** The ids of a concatenation are the ids of its parts. */
  lemma {:induction false} IdBagAppend(a: seq<TypeNode>, b: seq<TypeNode>)
    ensures IdBag(a + b) == IdBag(a) + IdBag(b)
    decreases a
  {
    if a != [] {
      assert (a + b)[0] == a[0] && (a + b)[1..] == a[1..] + b;
      IdBagAppend(a[1..], b);
    } else {
      assert a + b == b;
    }
  }

  /** Nothing is lost or duplicated: every type ends up either in the tree or in the report. */
  lemma {:induction false} MutateConserves(w: Walkies, c: seq<TypeNode>)
    ensures Conserved(w, c)
    decreases c
  {
    if c != [] {
      MutateConserves(w, c[1..]);
      if AnyEqual(w, c[0]) {
        MutateConserves(w, c[0].nested);
        ConservesKept(w, c);
      } else {
        ConservesDropped(w, c);
      }
    }
  }

  /** The ids of `c` are those left in the tree plus those reported. */
  predicate Conserved(w: Walkies, c: seq<TypeNode>) {
    IdBag(c) == IdBag(Mutate(w, c).remaining) + IdBag(Removed(Mutate(w, c)))
  }

  /** MutateConserves when the head is kept. */
  lemma ConservesKept(w: Walkies, c: seq<TypeNode>)
    requires c != [] && AnyEqual(w, c[0])
    requires Conserved(w, c[0].nested) && Conserved(w, c[1..])
    ensures Conserved(w, c)
  {
    var t := c[0];
    var inner := Mutate(w, t.nested);
    var rest := Mutate(w, c[1..]);
    KeptStep(w, c);
    IdBagAppend(rest.unused, rest.nestedUnused);
    KeptBags(t, inner, rest);
    assert IdBag(c) == multiset{t.id} + IdBag(t.nested) + IdBag(c[1..]);
  }

  /** MutateConserves when the head is removed. */
  lemma ConservesDropped(w: Walkies, c: seq<TypeNode>)
    requires c != [] && !AnyEqual(w, c[0])
    requires Conserved(w, c[1..])
    ensures Conserved(w, c)
  {
    var t := c[0];
    var rest := Mutate(w, c[1..]);
    DroppedStep(w, c);
    IdBagAppend(rest.unused, rest.nestedUnused);
    DroppedBags(t, rest);
    assert IdBag(c) == multiset{t.id} + IdBag(t.nested) + IdBag(c[1..]);
  }

  lemma KeptBags(t: TypeNode, inner: Mutation, rest: Mutation)
    ensures IdBag([t.(nested := inner.remaining)] + rest.remaining)
      == multiset{t.id} + IdBag(inner.remaining) + IdBag(rest.remaining)
    ensures IdBag(rest.unused + (Removed(inner) + rest.nestedUnused))
      == IdBag(rest.unused) + IdBag(Removed(inner)) + IdBag(rest.nestedUnused)
  {
    var t' := t.(nested := inner.remaining);
    IdBagAppend([t'], rest.remaining);
    assert IdBag([t']) == multiset{t.id} + IdBag(inner.remaining) by {
      assert [t'][1..] == [];
    }
    IdBagAppend(Removed(inner), rest.nestedUnused);
    IdBagAppend(rest.unused, Removed(inner) + rest.nestedUnused);
  }

  lemma DroppedBags(t: TypeNode, rest: Mutation)
    ensures IdBag(([t] + rest.unused) + rest.nestedUnused)
      == multiset{t.id} + IdBag(t.nested) + IdBag(rest.unused) + IdBag(rest.nestedUnused)
  {
    IdBagAppend([t], rest.unused);
    IdBagAppend([t] + rest.unused, rest.nestedUnused);
    assert IdBag([t]) == multiset{t.id} + IdBag(t.nested) by {
      assert [t][1..] == [];
    }
  }

  /** One step of Mutate on a kept head. */
  lemma KeptStep(w: Walkies, c: seq<TypeNode>)
    requires c != [] && AnyEqual(w, c[0])
    ensures var inner := Mutate(w, c[0].nested); var rest := Mutate(w, c[1..]);
      Mutate(w, c) == Mutation([c[0].(nested := inner.remaining)] + rest.remaining, rest.unused,
                               Removed(inner) + rest.nestedUnused)
  {
  }

  /** One step of Mutate on a removed head. */
  lemma DroppedStep(w: Walkies, c: seq<TypeNode>)
    requires c != [] && !AnyEqual(w, c[0])
    ensures var rest := Mutate(w, c[1..]);
      Mutate(w, c) == Mutation(rest.remaining, [c[0]] + rest.unused, rest.nestedUnused)
  {
  }

  /** A collection whose every type is kept comes through unchanged, and nothing is reported. */
  lemma {:induction false} MutateAllKept(w: Walkies, c: seq<TypeNode>)
    requires AllKept(w, c)
    ensures Mutate(w, c) == Mutation(c, [], [])
    decreases c
  {
    if c != [] {
      MutateAllKept(w, c[1..]);
      MutateAllKept(w, c[0].nested);
      AllKeptStep(w, c);
    }
  }

  /** MutateAllKept for a kept head whose nested types and successors come through unchanged. */
  lemma AllKeptStep(w: Walkies, c: seq<TypeNode>)
    requires c != [] && AnyEqual(w, c[0])
    requires Mutate(w, c[0].nested) == Mutation(c[0].nested, [], [])
    requires Mutate(w, c[1..]) == Mutation(c[1..], [], [])
    ensures Mutate(w, c) == Mutation(c, [], [])
  {
    KeptStep(w, c);
    assert c[0].(nested := c[0].nested) == c[0];
    assert [c[0]] + c[1..] == c;
  }

  /** Sweeping a second time with the same set removes nothing. */
  lemma {:induction false} MutateIdempotent(w: Walkies, c: seq<TypeNode>)
    ensures var m := Mutate(w, c); Mutate(w, m.remaining) == Mutation(m.remaining, [], [])
  {
    MutateKeeps(w, c);
    MutateAllKept(w, Mutate(w, c).remaining);
  }

  /** No id occurs twice in the tree: the shape of a module's type tree, where each type is one object. */
  ghost predicate UniqueIds(c: seq<TypeNode>) {
    forall id :: IdBag(c)[id] <= 1
  }

  /** The ids of `a`, then one type with its subtree, then `b`. */
  lemma IdBagAround(a: seq<TypeNode>, t: TypeNode, b: seq<TypeNode>)
    ensures IdBag(a + ([t] + b)) == IdBag(a) + (multiset{t.id} + IdBag(t.nested)) + IdBag(b)
  {
    IdBagAppend(a, [t] + b);
    assert ([t] + b)[0] == t && ([t] + b)[1..] == b;
  }

  /** The ids of one element, its own and its nested types', are among the ids of the collection. */
  lemma IdBagSplit(s: seq<TypeNode>, i: nat)
    requires i < |s|
    ensures IdBag(s) == IdBag(s[..i]) + (multiset{s[i].id} + IdBag(s[i].nested)) + IdBag(s[i + 1..])
  {
    Around(s, i);
    IdBagAround(s[..i], s[i], s[i + 1..]);
  }

  lemma Around(s: seq<TypeNode>, i: nat)
    requires i < |s|
    ensures s == s[..i] + ([s[i]] + s[i + 1..])
  {
  }

  /** One element's subtree ids are among the collection's. */
  lemma ElemBag(s: seq<TypeNode>, i: nat)
    requires i < |s|
    ensures multiset{s[i].id} + IdBag(s[i].nested) <= IdBag(s)
  {
    IdBagSplit(s, i);
  }

  /** Two distinct positions: the first one's subtree ids and the second one's own id are among the collection's. */
  lemma PairBag(s: seq<TypeNode>, i: nat, j: nat)
    requires i < |s| && j < |s| && i != j
    ensures multiset{s[i].id} + IdBag(s[i].nested) + multiset{s[j].id} <= IdBag(s)
  {
    IdBagSplit(s, i);
    var e := multiset{s[i].id} + IdBag(s[i].nested);
    if i < j {
      LaterId(s, i, j);
      BagSub(IdBag(s), IdBag(s[..i]), e, IdBag(s[i + 1..]), multiset{s[j].id});
    } else {
      EarlierId(s, i, j);
      BagSub(IdBag(s), IdBag(s[i + 1..]), e, IdBag(s[..i]), multiset{s[j].id});
    }
  }

  lemma LaterId(s: seq<TypeNode>, i: nat, j: nat)
    requires i < j < |s|
    ensures multiset{s[j].id} <= IdBag(s[i + 1..])
  {
    var tail := s[i + 1..];
    assert tail[j - i - 1] == s[j];
    ElemBag(tail, j - i - 1);
  }

  lemma EarlierId(s: seq<TypeNode>, i: nat, j: nat)
    requires j < i < |s|
    ensures multiset{s[j].id} <= IdBag(s[..i])
  {
    var head := s[..i];
    assert head[j] == s[j];
    ElemBag(head, j);
  }

  lemma BagSub(total: multiset<nat>, a: multiset<nat>, e: multiset<nat>, b: multiset<nat>, x: multiset<nat>)
    requires total == a + e + b || total == b + e + a
    requires x <= b
    ensures e + x <= total
  {
  }

  /** Within a collection of unique ids, no element's id lies inside another element's subtree. */
  lemma SubtreesDisjoint(s: seq<TypeNode>, t: TypeNode, u: TypeNode)
    requires UniqueIds(s) && t in s && u in s
    ensures u.id !in IdBag(t.nested)
  {
    var i :| 0 <= i < |s| && s[i] == t;
    var j :| 0 <= j < |s| && s[j] == u;
    if i == j {
      ElemBag(s, i);
      assert IdBag(s)[t.id] >= 1 + IdBag(t.nested)[t.id];
    } else {
      PairBag(s, i, j);
      assert IdBag(s)[u.id] >= IdBag(t.nested)[u.id] + 1;
    }
  }

  /**
   * A removed type takes its nested types with it unreported: in a tree of
   * unique ids, no reported type lies inside the subtree of another reported
   * type (or of itself).
   */
  lemma RemovedSubtreesSilent(w: Walkies, c: seq<TypeNode>, t: TypeNode, u: TypeNode)
    requires UniqueIds(c)
    requires t in Removed(Mutate(w, c)) && u in Removed(Mutate(w, c))
    ensures u.id !in IdBag(t.nested)
  {
    var r := Removed(Mutate(w, c));
    MutateConserves(w, c);
    assert UniqueIds(r) by {
      forall id ensures IdBag(r)[id] <= 1 {
        assert IdBag(c)[id] == IdBag(Mutate(w, c).remaining)[id] + IdBag(r)[id];
      }
    }
    SubtreesDisjoint(r, t, u);
  }

  /** The parent of every visited type in the tree is visited too. */
  predicate UpClosed(w: Walkies, c: seq<TypeNode>)
    decreases c
  {
    c != [] ==>
      && (forall u :: u in c[0].nested && Ref(u.id) in w.hash ==> Ref(c[0].id) in w.hash)
      && UpClosed(w, c[0].nested)
      && UpClosed(w, c[1..])
  }

  /** In an up-closed tree, a visited type anywhere below means a visited type at the top. */
  lemma {:induction false} TopVisited(w: Walkies, c: seq<TypeNode>, id: nat)
    requires UpClosed(w, c)
    requires id in IdBag(c) && Ref(id) in w.hash
    ensures exists u :: u in c && Ref(u.id) in w.hash
    decreases c
  {
    if c[0].id != id {
      if id in IdBag(c[0].nested) {
        TopVisited(w, c[0].nested, id);
      } else {
        TopVisited(w, c[1..], id);
        var u :| u in c[1..] && Ref(u.id) in w.hash;
        assert u in c;
      }
    }
  }

  /**
   * When every visited nested type has a visited parent, every visited type
   * of the tree is still in the tree after the sweep.
   */
  lemma {:induction false} VisitedSurvive(w: Walkies, c: seq<TypeNode>, id: nat)
    requires UpClosed(w, c)
    requires id in IdBag(c) && Ref(id) in w.hash
    ensures id in IdBag(Mutate(w, c).remaining)
    decreases c
  {
    var t := c[0];
    var rest := Mutate(w, c[1..]);
    if id in IdBag(t.nested) {
      TopVisited(w, t.nested, id);
      VisitedSurvive(w, t.nested, id);
    } else if id != t.id {
      VisitedSurvive(w, c[1..], id);
    }
    if AnyEqual(w, t) {
      var inner := Mutate(w, t.nested);
      IdBagAppend([t.(nested := inner.remaining)], rest.remaining);
      assert IdBag([t.(nested := inner.remaining)]) == multiset{t.id} + IdBag(inner.remaining);
    }
  }
}

=== FILE: trim.dfy ===
/**
 * The pipeline (WalkExtensions.Trim): build a Walkies over the exemptions, log
 * them, walk the whole assembly, then sweep the top-level types of every
 * module with the finished set and log each removed type.
 */
module WalkExtensions {
  import opened Wrappers
  import opened Cecil
  import opened Policy
  import opened Walkies
  import opened Walking
  import opened WalkProperties
  import opened Sweep
  import opened Seqs

  /** A module as the sweep sees it: its node and its top-level type tree (`ModuleDefinition.Types`). */
  datatype ModuleTypes = ModuleTypes(id: nat, types: seq<TypeNode>)

  /** An AssemblyDefinition: the object graph, the assembly's own node, and its modules in order. */
  datatype Assembly = Assembly(graph: Graph, id: nat, modules: seq<ModuleTypes>)

  /** What Trim leaves behind: the assembly after the removals, the removed types, and the log lines. */
  datatype Trimmed = Trimmed(asm: Assembly, removed: seq<TypeNode>, log: seq<string>)

  /** The set Trim sweeps with: a fresh instance over `except` after walking the assembly. */
  function Walked(asm: Assembly, except: Option<seq<Option<string>>>): (w: Walkies)
    ensures Valid(w)
    ensures w.except == Exemptions(except)
    ensures Ref(asm.id) in w.hash
    ensures forall y :: y in w.hash ==> Expanded(asm.graph, w.hash, y)
  {
    FreshWalkIsClosed(asm.graph, New(except), Ref(asm.id));
    Walk(asm.graph, New(except), Ref(asm.id))
  }

  /** Every top-level type of the modules, module after module. */
  function AllTypes(ms: seq<ModuleTypes>): seq<TypeNode> {
    if ms == [] then [] else ms[0].types + AllTypes(ms[1..])
  }

  /**
   * `Modules.Select(x => x.Types).SelectMany(walked.Mutate)`: every module's
   * type collection is swept with the same set, and the removals are
   * reported module after module.
   */
  function SweepModules(w: Walkies, ms: seq<ModuleTypes>): (r: (seq<ModuleTypes>, seq<TypeNode>))
    ensures |r.0| == |ms|
    ensures forall i :: 0 <= i < |ms| ==> r.0[i] == ModuleTypes(ms[i].id, Mutate(w, ms[i].types).remaining)
    ensures forall t :: t in r.1 ==> !AnyEqual(w, t)
  {
    if ms == [] then ([], [])
    else
      var m := Mutate(w, ms[0].types);
      var rest := SweepModules(w, ms[1..]);
      ([ModuleTypes(ms[0].id, m.remaining)] + rest.0, Removed(m) + rest.1)
  }

  /** One `Begone, {x}!` line per removed type, in removal order; a TypeDefinition prints its full name. */
  function BegoneLines(removed: seq<TypeNode>): (r: seq<string>)
    ensures |r| == |removed|
    ensures forall i :: 0 <= i < |r| ==> r[i] == BegoneLine(removed[i].fullName)
  {
    seq(|removed|, i requires 0 <= i < |removed| => BegoneLine(removed[i].fullName))
  }

  /** The objects a collection of type definitions holds: one reference per type, in order. */
  function TypeRefs(c: seq<TypeNode>): (r: seq<Obj>)
    ensures |r| == |c|
    ensures forall i :: 0 <= i < |c| ==> r[i] == Ref(c[i].id)
  {
    if c == [] then [] else [Ref(c[0].id)] + TypeRefs(c[1..])
  }

  /** The objects the removed types are in the graph. */
  function Gone(removed: seq<TypeNode>): (r: set<Obj>)
    ensures forall o :: o in r <==> exists t :: t in removed && o == Ref(t.id)
  {
    set t | t in removed :: Ref(t.id)
  }

  /** A collection after `Remove` of every object in `gone`: the others, in order. */
  function Without(xs: seq<Obj>, gone: set<Obj>): (r: seq<Obj>)
    ensures forall o :: o in r <==> o in xs && o !in gone
  {
    Filter(o => o !in gone, xs)
  }

  /**
   * A node after the removals: its `Types` and `NestedTypes` collections no
   * longer hold the removed types; every other field is as it was.
   */
  function Unlink(n: Node, gone: set<Obj>): (r: Node)
    ensures r.(lists := n.lists) == n
    ensures forall f :: Many(r, f) == if f in {Types, NestedTypes} then Without(Many(n, f), gone) else Many(n, f)
  {
    n.(lists := map f | f in n.lists :: if f in {Types, NestedTypes} then Without(n.lists[f], gone) else n.lists[f])
  }

  /** Trim with exemptions. */
  function Trim(asm: Assembly, except: Option<seq<Option<string>>>): (r: Trimmed)
    ensures r.asm.id == asm.id && r.asm.graph.Keys == asm.graph.Keys
    ensures forall id :: id in asm.graph ==> r.asm.graph[id] == Unlink(asm.graph[id], Gone(r.removed))
    ensures |r.asm.modules| == |asm.modules|
    ensures forall i :: 0 <= i < |asm.modules| ==>
      r.asm.modules[i] == ModuleTypes(asm.modules[i].id, Mutate(Walked(asm, except), asm.modules[i].types).remaining)
    ensures forall t :: t in r.removed ==> !AnyEqual(Walked(asm, except), t)
    ensures r.log == Display(Walked(asm, except)) + BegoneLines(r.removed)
  {
    var w := Walked(asm, except);
    var swept := SweepModules(w, asm.modules);
    var gone := Gone(swept.1);
    var g := map id | id in asm.graph :: Unlink(asm.graph[id], gone);
    Trimmed(Assembly.Assembly(g, asm.id, swept.0), swept.1, Display(w) + BegoneLines(swept.1))
  }

  /** The one-argument Trim: no exemptions. */
  function TrimDefault(asm: Assembly): (r: Trimmed)
    ensures forall t :: t in r.removed ==> Ref(t.id) !in Walked(asm, None).hash
    ensures r.log == BegoneLines(r.removed)
  {
    Trim(asm, None)
  }

  /** Exemption lists holding only null or blank entries behave as no list at all. */
  lemma BlankExemptionsAreNone(asm: Assembly, xs: seq<Option<string>>)
    requires forall e :: e in xs ==> IsNullOrWhiteSpace(e)
    ensures Trim(asm, Some(xs)) == TrimDefault(asm)
  {
    InsertBlank(xs);
  }

  lemma {:induction false} InsertBlank(entries: seq<Option<string>>)
    requires forall e :: e in entries ==> IsNullOrWhiteSpace(e)
    ensures Insert(entries) == []
    decreases |entries|
  {
    if entries != [] {
      var prefix := entries[..|entries| - 1];
      assert forall e :: e in prefix ==> e in entries;
      InsertBlank(prefix);
    }
  }

  /** The log opens with one keep line per exemption, then holds one removal line per removed type. */
  lemma TrimLogOrder(asm: Assembly, except: Option<seq<Option<string>>>)
    ensures var r := Trim(asm, except); var k := |Exemptions(except)|;
      && |r.log| == k + |r.removed|
      && (forall i :: 0 <= i < k ==> r.log[i] == KeepLine(Exemptions(except)[i]))
      && (forall i :: 0 <= i < |r.removed| ==> r.log[k + i] == BegoneLine(r.removed[i].fullName))
  {
  }

  lemma {:induction false} AllTypesConserved(w: Walkies, ms: seq<ModuleTypes>)
    ensures var r := SweepModules(w, ms); IdBag(AllTypes(ms)) == IdBag(AllTypes(r.0)) + IdBag(r.1)
    decreases ms
  {
    if ms != [] {
      var m := Mutate(w, ms[0].types);
      var rest := SweepModules(w, ms[1..]);
      var r := SweepModules(w, ms);
      AllTypesConserved(w, ms[1..]);
      MutateConserves(w, ms[0].types);
      assert r.0[1..] == rest.0;
      IdBagAppend(ms[0].types, AllTypes(ms[1..]));
      IdBagAppend(m.remaining, AllTypes(rest.0));
      IdBagAppend(Removed(m), rest.1);
    }
  }

  /** Every type of the assembly either stays in its module or is reported, exactly once. */
  lemma TrimConserves(asm: Assembly, except: Option<seq<Option<string>>>)
    ensures var r := Trim(asm, except); IdBag(AllTypes(asm.modules)) == IdBag(AllTypes(r.asm.modules)) + IdBag(r.removed)
  {
    AllTypesConserved(Walked(asm, except), asm.modules);
  }

  /**
   * The shape Cecil gives a module's type tree: each nested type is a
   * TypeDefinition of the graph whose DeclaringType is its container.
   */
  predicate Nests(g: Graph, c: seq<TypeNode>)
    decreases c
  {
    c != [] ==>
      && (forall u :: u in c[0].nested ==>
            u.id in g && g[u.id].kind == TypeDefinition && One(g[u.id], DeclaringType) == Ref(c[0].id))
      && Nests(g, c[0].nested)
      && Nests(g, c[1..])
  }

  /** A set closed under the walked fields holds the container of every nested type it holds. */
  lemma {:induction false} ClosedIsUpClosed(g: Graph, w: Walkies, c: seq<TypeNode>)
    requires Nests(g, c)
    requires forall y :: y in w.hash ==> Expanded(g, w.hash, y)
    ensures UpClosed(w, c)
    decreases c
  {
    if c != [] {
      forall u | u in c[0].nested && Ref(u.id) in w.hash
        ensures Ref(c[0].id) in w.hash
      {
        DeclaringTypeIsWalked(g, u.id);
        assert Expanded(g, w.hash, Ref(u.id));
      }
      ClosedIsUpClosed(g, w, c[0].nested);
      ClosedIsUpClosed(g, w, c[1..]);
    }
  }

  /**
   * Every type definition the walk visited is still in its module after the
   * sweep: it entered the set together with its declaring type, so the
   * sweep never removes one of its containers.
   */
  lemma TrimKeepsVisited(asm: Assembly, except: Option<seq<Option<string>>>, i: nat, id: nat)
    requires i < |asm.modules| && Nests(asm.graph, asm.modules[i].types)
    requires id in IdBag(asm.modules[i].types) && Ref(id) in Walked(asm, except).hash
    ensures id in IdBag(Trim(asm, except).asm.modules[i].types)
  {
    var w := Walked(asm, except);
    ClosedIsUpClosed(asm.graph, w, asm.modules[i].types);
    VisitedSurvive(w, asm.modules[i].types, id);
  }
}

=== FILE: trim_graph.dfy ===
/**
 * The graph side of the sweep. Cecil holds a module's top-level types in
 * `ModuleDefinition.Types` and a type's nested types in
 * `TypeDefinition.NestedTypes`; the sweep walks the same collections as type
 * trees. Coherent says the trees and the graph agree, and Trim keeps them
 * agreeing: `Remove` takes a type out of the collection the tree shows it in.
 */
module TrimGraph {
  import opened Wrappers
  import opened Cecil
  import opened Walkies
  import opened Sweep
  import opened WalkExtensions

  /**
   * One type as the graph holds it: a TypeDefinition node with the tree's
   * names, whose NestedTypes are the tree's nested types, each declared by it.
   */
  predicate TypeFits(g: Graph, t: TypeNode) {
    && t.id in g
    && g[t.id].kind == TypeDefinition
    && g[t.id].fullName == t.fullName && g[t.id].name == t.name && g[t.id].ns == t.ns
    && Many(g[t.id], NestedTypes) == TypeRefs(t.nested)
    && forall y :: y in Many(g[t.id], NestedTypes) ==>
         y.Ref? && y.id in g && One(g[y.id], DeclaringType) == Ref(t.id)
  }

  /** Every type of the tree, nested ones included, fits the graph. */
  predicate Shaped(g: Graph, c: seq<TypeNode>)
    decreases c
  {
    c != [] ==> TypeFits(g, c[0]) && Shaped(g, c[0].nested) && Shaped(g, c[1..])
  }

  /** A module as the graph holds it: a ModuleDefinition node whose Types are the tree's top-level types. */
  predicate ModuleFits(g: Graph, m: ModuleTypes) {
    && m.id in g
    && g[m.id].kind == ModuleDefinition
    && Many(g[m.id], Types) == TypeRefs(m.types)
    && Shaped(g, m.types)
  }

  /** The objects `AssemblyDefinition.Modules` holds. */
  function ModuleRefs(ms: seq<ModuleTypes>): (r: seq<Obj>)
    ensures |r| == |ms|
    ensures forall i :: 0 <= i < |ms| ==> r[i] == Ref(ms[i].id)
  {
    seq(|ms|, i requires 0 <= i < |ms| => Ref(ms[i].id))
  }

  /**
   * An assembly whose module list and type trees are those of its graph, in
   * which every type occurs once: Cecil gives each TypeDefinition one owner.
   */
  ghost predicate Coherent(asm: Assembly) {
    && asm.id in asm.graph
    && asm.graph[asm.id].kind == AssemblyDefinition
    && Many(asm.graph[asm.id], Modules) == ModuleRefs(asm.modules)
    && (forall i :: 0 <= i < |asm.modules| ==> ModuleFits(asm.graph, asm.modules[i]))
    && UniqueIds(AllTypes(asm.modules))
  }

  /** `h` is `g` after the types in `gone` were removed from their collections. */
  predicate UnlinkedFrom(h: Graph, g: Graph, gone: set<Obj>) {
    h.Keys == g.Keys && forall id :: id in g ==> h[id] == Unlink(g[id], gone)
  }

  /**
   * What Trim's graph must remove: along every path of kept types, a type is
   * in `gone` exactly when it fails AnyEqual.
   */
  predicate GoneFits(w: Walkies, c: seq<TypeNode>, gone: set<Obj>)
    decreases c
  {
    c != [] ==>
      && (Ref(c[0].id) in gone <==> !AnyEqual(w, c[0]))
      && (AnyEqual(w, c[0]) ==> GoneFits(w, c[0].nested, gone))
      && GoneFits(w, c[1..], gone)
  }

  /** Every type of a shaped tree fits the graph. */
  lemma {:induction false} ShapedHas(g: Graph, c: seq<TypeNode>, u: TypeNode)
    requires Shaped(g, c) && u in c
    ensures TypeFits(g, u)
    decreases c
  {
    if u != c[0] {
      ShapedHas(g, c[1..], u);
    }
  }

  /** A shaped tree nests as the sweep's correctness argument needs. */
  lemma {:induction false} ShapedNests(g: Graph, c: seq<TypeNode>)
    requires Shaped(g, c)
    ensures Nests(g, c)
    decreases c
  {
    if c != [] {
      forall u | u in c[0].nested
        ensures u.id in g && g[u.id].kind == TypeDefinition && One(g[u.id], DeclaringType) == Ref(c[0].id)
      {
        ShapedHas(g, c[0].nested, u);
        var i :| 0 <= i < |c[0].nested| && c[0].nested[i] == u;
        assert Many(g[c[0].id], NestedTypes)[i] == Ref(u.id);
      }
      ShapedNests(g, c[0].nested);
      ShapedNests(g, c[1..]);
    }
  }

  /** Every module of a coherent assembly nests, so TrimKeepsVisited applies to it. */
  lemma CoherentNests(asm: Assembly, i: nat)
    requires Coherent(asm) && i < |asm.modules|
    ensures Nests(asm.graph, asm.modules[i].types)
  {
    ShapedNests(asm.graph, asm.modules[i].types);
  }

  /** Every visited type of a coherent assembly is still in its module after Trim. */
  lemma CoherentKeepsVisited(asm: Assembly, except: Option<seq<Option<string>>>, i: nat, id: nat)
    requires Coherent(asm) && i < |asm.modules|
    requires id in IdBag(asm.modules[i].types) && Ref(id) in Walked(asm, except).hash
    ensures id in IdBag(Trim(asm, except).asm.modules[i].types)
  {
    CoherentNests(asm, i);
    TrimKeepsVisited(asm, except, i, id);
  }

  /** GoneFits speaks about the top-level types of the collection. */
  lemma {:induction false} GoneFitsTop(w: Walkies, c: seq<TypeNode>, gone: set<Obj>)
    requires GoneFits(w, c, gone)
    ensures forall t :: t in c ==> (Ref(t.id) in gone <==> !AnyEqual(w, t))
    decreases c
  {
    if c != [] {
      GoneFitsTop(w, c[1..], gone);
    }
  }

  /** Removing the failing types from a collection's references leaves the references of Mutate's result. */
  lemma {:induction false} WithoutTypeRefs(w: Walkies, c: seq<TypeNode>, gone: set<Obj>)
    requires forall t :: t in c ==> (Ref(t.id) in gone <==> !AnyEqual(w, t))
    ensures Without(TypeRefs(c), gone) == TypeRefs(Mutate(w, c).remaining)
    decreases c
  {
    if c != [] {
      var t := c[0];
      var rest := Mutate(w, c[1..]);
      WithoutTypeRefs(w, c[1..], gone);
      assert TypeRefs(c) == [Ref(t.id)] + TypeRefs(c[1..]);
      if AnyEqual(w, t) {
        KeptStep(w, c);
        var t' := t.(nested := Mutate(w, t.nested).remaining);
        assert ([t'] + rest.remaining)[1..] == rest.remaining;
      } else {
        DroppedStep(w, c);
      }
    }
  }

  /** A kept type, its nested collection swept, still fits the unlinked graph. */
  lemma TypeFitsAfter(g: Graph, h: Graph, gone: set<Obj>, t: TypeNode, inner: seq<TypeNode>)
    requires UnlinkedFrom(h, g, gone) && TypeFits(g, t)
    requires Without(TypeRefs(t.nested), gone) == TypeRefs(inner)
    ensures TypeFits(h, t.(nested := inner))
  {
    var n := g[t.id];
    assert h[t.id] == Unlink(n, gone);
    assert Many(h[t.id], NestedTypes) == Without(Many(n, NestedTypes), gone);
    forall y | y in Many(h[t.id], NestedTypes)
      ensures y.Ref? && y.id in h && One(h[y.id], DeclaringType) == Ref(t.id)
    {
      assert h[y.id] == Unlink(g[y.id], gone);
    }
  }

  /** The swept tree fits the unlinked graph. */
  lemma {:induction false} ShapedAfter(g: Graph, h: Graph, gone: set<Obj>, w: Walkies, c: seq<TypeNode>)
    requires UnlinkedFrom(h, g, gone) && Shaped(g, c) && GoneFits(w, c, gone)
    ensures Shaped(h, Mutate(w, c).remaining)
    decreases c
  {
    if c != [] {
      var t := c[0];
      var rest := Mutate(w, c[1..]);
      ShapedAfter(g, h, gone, w, c[1..]);
      if AnyEqual(w, t) {
        var inner := Mutate(w, t.nested);
        KeptStep(w, c);
        ShapedAfter(g, h, gone, w, t.nested);
        GoneFitsTop(w, t.nested, gone);
        WithoutTypeRefs(w, t.nested, gone);
        TypeFitsAfter(g, h, gone, t, inner.remaining);
        var t' := t.(nested := inner.remaining);
        assert ([t'] + rest.remaining)[0] == t' && ([t'] + rest.remaining)[1..] == rest.remaining;
      } else {
        DroppedStep(w, c);
      }
    }
  }

  /**
   * The removal set fits a collection when it holds every type Mutate reports
   * and no id left in the swept tree.
   */
  lemma {:induction false} GoneFitsFrom(w: Walkies, c: seq<TypeNode>, gone: set<Obj>)
    requires forall t :: t in Removed(Mutate(w, c)) ==> Ref(t.id) in gone
    requires forall id :: id in IdBag(Mutate(w, c).remaining) ==> Ref(id) !in gone
    ensures GoneFits(w, c, gone)
    decreases c
  {
    if c != [] {
      if AnyEqual(w, c[0]) {
        KeptParts(w, c);
        GoneFitsFrom(w, c[0].nested, gone);
        GoneFitsFrom(w, c[1..], gone);
      } else {
        DroppedParts(w, c);
        GoneFitsFrom(w, c[1..], gone);
      }
    }
  }

  /** A kept head stays, and what its nested types and its successors keep is part of the whole. */
  lemma KeptParts(w: Walkies, c: seq<TypeNode>)
    requires c != [] && AnyEqual(w, c[0])
    ensures var m := Mutate(w, c); var inner := Mutate(w, c[0].nested); var rest := Mutate(w, c[1..]);
      && c[0].id in IdBag(m.remaining)
      && IdBag(inner.remaining) <= IdBag(m.remaining)
      && IdBag(rest.remaining) <= IdBag(m.remaining)
      && (forall t :: t in Removed(inner) ==> t in Removed(m))
      && (forall t :: t in Removed(rest) ==> t in Removed(m))
  {
    var inner := Mutate(w, c[0].nested);
    var rest := Mutate(w, c[1..]);
    KeptStep(w, c);
    KeptIds(c[0], inner, rest);
    KeptReports(inner, rest);
  }

  /** The ids a kept head leaves behind hold its own and those its nested types and successors leave. */
  lemma KeptIds(t: TypeNode, inner: Mutation, rest: Mutation)
    ensures var kept := [t.(nested := inner.remaining)] + rest.remaining;
      && t.id in IdBag(kept)
      && IdBag(inner.remaining) <= IdBag(kept)
      && IdBag(rest.remaining) <= IdBag(kept)
  {
    KeptBags(t, inner, rest);
  }

  /** The reports of a kept head's nested types and of its successors are among the whole's. */
  lemma KeptReports(inner: Mutation, rest: Mutation)
    ensures forall t :: t in Removed(inner) ==> t in rest.unused + (Removed(inner) + rest.nestedUnused)
    ensures forall t :: t in Removed(rest) ==> t in rest.unused + (Removed(inner) + rest.nestedUnused)
  {
  }

  /** A removed head: it is reported, and its successors' outcome is part of the whole. */
  lemma DroppedParts(w: Walkies, c: seq<TypeNode>)
    requires c != [] && !AnyEqual(w, c[0])
    ensures var m := Mutate(w, c); var rest := Mutate(w, c[1..]);
      && c[0] in Removed(m)
      && m.remaining == rest.remaining
      && (forall t :: t in Removed(rest) ==> t in Removed(m))
  {
    DroppedStep(w, c);
  }

  /** The types a module's Mutate reports are among the types SweepModules reports. */
  lemma {:induction false} SweptRemoved(w: Walkies, ms: seq<ModuleTypes>, i: nat)
    requires i < |ms|
    ensures forall t :: t in Removed(Mutate(w, ms[i].types)) ==> t in SweepModules(w, ms).1
    decreases i
  {
    if i > 0 {
      SweptRemoved(w, ms[1..], i - 1);
    }
  }

  /** The ids of one module's tree are among the ids of all modules' trees. */
  lemma {:induction false} ModuleBag(ms: seq<ModuleTypes>, i: nat)
    requires i < |ms|
    ensures IdBag(ms[i].types) <= IdBag(AllTypes(ms))
    decreases i
  {
    IdBagAppend(ms[0].types, AllTypes(ms[1..]));
    if i > 0 {
      ModuleBag(ms[1..], i - 1);
    }
  }

  /** A top-level type's id is in the collection's ids. */
  lemma TopBag(c: seq<TypeNode>, t: TypeNode)
    requires t in c
    ensures t.id in IdBag(c)
  {
    var i :| 0 <= i < |c| && c[i] == t;
    ElemBag(c, i);
  }

  /** A module swept with a removal set that fits it still fits the unlinked graph. */
  lemma ModuleFitsAfter(g: Graph, h: Graph, gone: set<Obj>, w: Walkies, m: ModuleTypes)
    requires UnlinkedFrom(h, g, gone) && ModuleFits(g, m)
    requires forall t :: t in Removed(Mutate(w, m.types)) ==> Ref(t.id) in gone
    requires forall id :: id in IdBag(Mutate(w, m.types).remaining) ==> Ref(id) !in gone
    ensures ModuleFits(h, ModuleTypes(m.id, Mutate(w, m.types).remaining))
  {
    GoneFitsFrom(w, m.types, gone);
    GoneFitsTop(w, m.types, gone);
    WithoutTypeRefs(w, m.types, gone);
    ShapedAfter(g, h, gone, w, m.types);
    assert h[m.id] == Unlink(g[m.id], gone);
  }

  /** An id left behind is not removed, when no id occurred twice before the sweep. */
  lemma KeptNotGone(before: multiset<nat>, after: multiset<nat>, removed: seq<TypeNode>, id: nat)
    requires forall x :: before[x] <= 1
    requires before == after + IdBag(removed)
    requires id in after
    ensures Ref(id) !in Gone(removed)
  {
    assert before[id] == after[id] + IdBag(removed)[id];
    forall t | t in removed
      ensures t.id != id
    {
      TopBag(removed, t);
    }
  }

  /** Each module of a coherent assembly still fits the graph after Trim. */
  lemma ModuleAfter(asm: Assembly, except: Option<seq<Option<string>>>, i: nat)
    requires Coherent(asm) && i < |asm.modules|
    ensures var r := Trim(asm, except); ModuleFits(r.asm.graph, r.asm.modules[i])
  {
    var w := Walked(asm, except);
    var r := Trim(asm, except);
    var gone := Gone(r.removed);
    var m := asm.modules[i];
    assert UnlinkedFrom(r.asm.graph, asm.graph, gone);
    assert r.asm.modules[i] == ModuleTypes(m.id, Mutate(w, m.types).remaining);
    SweptRemoved(w, asm.modules, i);
    ModuleBag(r.asm.modules, i);
    TrimConserves(asm, except);
    forall id | id in IdBag(Mutate(w, m.types).remaining)
      ensures Ref(id) !in gone
    {
      KeptNotGone(IdBag(AllTypes(asm.modules)), IdBag(AllTypes(r.asm.modules)), r.removed, id);
    }
    ModuleFitsAfter(asm.graph, r.asm.graph, gone, w, m);
  }

  /** Trim keeps an assembly coherent: its graph loses exactly the types its trees lose. */
  lemma TrimCoherent(asm: Assembly, except: Option<seq<Option<string>>>)
    requires Coherent(asm)
    ensures Coherent(Trim(asm, except).asm)
  {
    var r := Trim(asm, except);
    AssemblyAfter(asm, except);
    forall i | 0 <= i < |r.asm.modules|
      ensures ModuleFits(r.asm.graph, r.asm.modules[i])
    {
      ModuleAfter(asm, except, i);
    }
    UniqueAfter(asm, except);
  }

  /** The assembly node after Trim: same kind, same modules. */
  lemma AssemblyAfter(asm: Assembly, except: Option<seq<Option<string>>>)
    requires asm.id in asm.graph && asm.graph[asm.id].kind == AssemblyDefinition
    requires Many(asm.graph[asm.id], Modules) == ModuleRefs(asm.modules)
    ensures var r := Trim(asm, except);
      && asm.id in r.asm.graph
      && r.asm.graph[asm.id].kind == AssemblyDefinition
      && Many(r.asm.graph[asm.id], Modules) == ModuleRefs(r.asm.modules)
  {
    var r := Trim(asm, except);
    assert UnlinkedFrom(r.asm.graph, asm.graph, Gone(r.removed));
    AssemblyNodeAfter(asm.graph, r.asm.graph, Gone(r.removed), asm.id, asm.modules, r.asm.modules);
  }

  /** The assembly node of an unlinked graph still lists the same modules. */
  lemma AssemblyNodeAfter(g: Graph, h: Graph, gone: set<Obj>, id: nat, ms: seq<ModuleTypes>, ms': seq<ModuleTypes>)
    requires UnlinkedFrom(h, g, gone) && id in g
    requires Many(g[id], Modules) == ModuleRefs(ms)
    requires |ms| == |ms'| && forall i :: 0 <= i < |ms| ==> ms[i].id == ms'[i].id
    ensures id in h && h[id].kind == g[id].kind && Many(h[id], Modules) == ModuleRefs(ms')
  {
    UnlinkKeeps(g[id], gone, Modules);
    SameModuleRefs(ms, ms');
  }

  /** Unlink changes neither a node's kind nor a collection other than Types and NestedTypes. */
  lemma UnlinkKeeps(n: Node, gone: set<Obj>, f: Field)
    requires f !in {Types, NestedTypes}
    ensures Unlink(n, gone).kind == n.kind && Many(Unlink(n, gone), f) == Many(n, f)
  {
  }

  lemma SameModuleRefs(a: seq<ModuleTypes>, b: seq<ModuleTypes>)
    requires |a| == |b| && forall i :: 0 <= i < |a| ==> a[i].id == b[i].id
    ensures ModuleRefs(a) == ModuleRefs(b)
  {
  }

  /** Trim removes types but never duplicates one. */
  lemma UniqueAfter(asm: Assembly, except: Option<seq<Option<string>>>)
    requires UniqueIds(AllTypes(asm.modules))
    ensures UniqueIds(AllTypes(Trim(asm, except).asm.modules))
  {
    var r := Trim(asm, except);
    TrimConserves(asm, except);
    forall id
      ensures IdBag(AllTypes(r.asm.modules))[id] <= 1
    {
      assert IdBag(AllTypes(asm.modules))[id] == IdBag(AllTypes(r.asm.modules))[id] + IdBag(r.removed)[id];
    }
  }

  /**
   * Cecil's ownership rule: a type sits only in its module's `Types` or its
   * declaring type's `NestedTypes`. Stated on the graph: only the assembly's
   * modules hold a type of the trees in `Types`, and only types of the trees
   * hold one in `NestedTypes`.
   */
  ghost predicate SingleOwner(asm: Assembly) {
    TypesOwned(asm.graph, asm.modules) && NestedOwned(asm.graph, asm.modules)
  }

  /** Only modules hold types of the trees in their `Types`. */
  ghost predicate TypesOwned(g: Graph, ms: seq<ModuleTypes>) {
    forall id, y :: id in g && y in Many(g[id], Types) && y.Ref? && y.id in IdBag(AllTypes(ms)) ==>
      Ref(id) in ModuleRefs(ms)
  }

  /** Only types of the trees hold types of the trees in their `NestedTypes`. */
  ghost predicate NestedOwned(g: Graph, ms: seq<ModuleTypes>) {
    forall id, y :: id in g && y in Many(g[id], NestedTypes) && y.Ref? && y.id in IdBag(AllTypes(ms)) ==>
      id in IdBag(AllTypes(ms))
  }

  /** A collection holding nothing of `gone` comes through unchanged. */
  lemma {:induction false} WithoutNone(xs: seq<Obj>, gone: set<Obj>)
    requires forall y :: y in xs ==> y !in gone
    ensures Without(xs, gone) == xs
    decreases xs
  {
    if xs != [] {
      WithoutNone(xs[1..], gone);
      assert xs == [xs[0]] + xs[1..];
    }
  }

  /** A node whose Types and NestedTypes hold nothing of `gone` comes through Unlink unchanged. */
  lemma UnlinkNone(n: Node, gone: set<Obj>)
    requires forall y :: y in Many(n, Types) ==> y !in gone
    requires forall y :: y in Many(n, NestedTypes) ==> y !in gone
    ensures Unlink(n, gone) == n
  {
    WithoutNone(Many(n, Types), gone);
    WithoutNone(Many(n, NestedTypes), gone);
    var r := Unlink(n, gone);
    forall f | f in n.lists
      ensures r.lists[f] == n.lists[f]
    {
      assert Many(r, f) == Many(n, f);
    }
    assert r.lists == n.lists;
  }

  /** Trim removes only types of the trees, and holds no id twice among the removed ones. */
  lemma TrimGone(asm: Assembly, except: Option<seq<Option<string>>>)
    ensures var r := Trim(asm, except);
      forall o :: o in Gone(r.removed) ==> o.Ref? && o.id in IdBag(AllTypes(asm.modules))
    ensures UniqueIds(AllTypes(asm.modules)) ==> UniqueIds(Trim(asm, except).removed)
  {
    var r := Trim(asm, except);
    TrimConserves(asm, except);
    forall o | o in Gone(r.removed)
      ensures o.Ref? && o.id in IdBag(AllTypes(asm.modules))
    {
      var t :| t in r.removed && o == Ref(t.id);
      TopBag(r.removed, t);
    }
    if UniqueIds(AllTypes(asm.modules)) {
      forall id
        ensures IdBag(r.removed)[id] <= 1
      {
        assert IdBag(AllTypes(asm.modules))[id] == IdBag(AllTypes(r.asm.modules))[id] + IdBag(r.removed)[id];
      }
    }
  }

  /**
   * Trim changes no node outside the trees: with single ownership, a node that
   * is neither a module nor a type of the trees holds no removed type, so
   * Unlink leaves it as `Remove` does.
   */
  lemma TrimTouchesOnlyTrees(asm: Assembly, except: Option<seq<Option<string>>>, id: nat)
    requires SingleOwner(asm) && id in asm.graph
    requires Ref(id) !in ModuleRefs(asm.modules) && id !in IdBag(AllTypes(asm.modules))
    ensures Trim(asm, except).asm.graph[id] == asm.graph[id]
  {
    var r := Trim(asm, except);
    TrimGone(asm, except);
    UnlinkNone(asm.graph[id], Gone(r.removed));
  }

  /** Every type a sweep of a shaped tree reports fits the graph. */
  lemma {:induction false} RemovedFit(g: Graph, w: Walkies, c: seq<TypeNode>)
    requires Shaped(g, c)
    ensures forall t :: t in Removed(Mutate(w, c)) ==> TypeFits(g, t)
    decreases c
  {
    if c != [] {
      RemovedFit(g, w, c[1..]);
      if AnyEqual(w, c[0]) {
        RemovedFit(g, w, c[0].nested);
        KeptStep(w, c);
        KeptReports(Mutate(w, c[0].nested), Mutate(w, c[1..]));
      } else {
        DroppedStep(w, c);
      }
    }
  }

  /** Every type SweepModules reports fits the graph, when every module does. */
  lemma {:induction false} SweptFit(g: Graph, w: Walkies, ms: seq<ModuleTypes>)
    requires forall i :: 0 <= i < |ms| ==> ModuleFits(g, ms[i])
    ensures forall t :: t in SweepModules(w, ms).1 ==> TypeFits(g, t)
    decreases ms
  {
    if ms != [] {
      assert ModuleFits(g, ms[0]);
      RemovedFit(g, w, ms[0].types);
      SweptFit(g, w, ms[1..]);
    }
  }

  /** A nested type of a removed type is not removed itself: its container's removal took it along. */
  lemma ChildNotGone(removed: seq<TypeNode>, t: TypeNode, c: TypeNode)
    requires UniqueIds(removed) && t in removed && c in t.nested
    ensures Ref(c.id) !in Gone(removed)
  {
    TopBag(t.nested, c);
    forall u | u in removed
      ensures u.id != c.id
    {
      SubtreesDisjoint(removed, t, u);
    }
  }

  /**
   * A removed type's own collections are unchanged: `Remove` takes it out
   * of its container and leaves its nested types and members with it. The
   * declaring-type and module links that Mono.Cecil clears on removal are
   * not modelled, so the whole node compares equal here.
   */
  lemma TrimKeepsRemovedNodes(asm: Assembly, except: Option<seq<Option<string>>>, t: TypeNode)
    requires Coherent(asm) && SingleOwner(asm)
    requires t in Trim(asm, except).removed
    ensures t.id in asm.graph && Trim(asm, except).asm.graph[t.id] == asm.graph[t.id]
  {
    var r := Trim(asm, except);
    SweptFit(asm.graph, Walked(asm, except), asm.modules);
    TrimGone(asm, except);
    ModuleKinds(asm);
    RemovedHoldsNoTypes(asm.graph, asm.modules, Gone(r.removed), t);
    RemovedHoldsNoNested(asm.graph, r.removed, t);
    UnlinkNone(asm.graph[t.id], Gone(r.removed));
  }

  /** The modules of a coherent assembly are ModuleDefinition nodes. */
  lemma ModuleKinds(asm: Assembly)
    requires Coherent(asm)
    ensures forall i :: 0 <= i < |asm.modules| ==>
      asm.modules[i].id in asm.graph && asm.graph[asm.modules[i].id].kind == ModuleDefinition
  {
    forall i | 0 <= i < |asm.modules|
      ensures asm.modules[i].id in asm.graph && asm.graph[asm.modules[i].id].kind == ModuleDefinition
    {
      assert ModuleFits(asm.graph, asm.modules[i]);
    }
  }

  /** A type definition is no module, so with single ownership its `Types` hold none of the removed types. */
  lemma RemovedHoldsNoTypes(g: Graph, ms: seq<ModuleTypes>, gone: set<Obj>, t: TypeNode)
    requires TypesOwned(g, ms)
    requires forall i :: 0 <= i < |ms| ==> ms[i].id in g && g[ms[i].id].kind == ModuleDefinition
    requires t.id in g && g[t.id].kind == TypeDefinition
    requires forall o :: o in gone ==> o.Ref? && o.id in IdBag(AllTypes(ms))
    ensures forall y :: y in Many(g[t.id], Types) ==> y !in gone
  {
    forall i | 0 <= i < |ms|
      ensures ModuleRefs(ms)[i] != Ref(t.id)
    {
    }
    assert Ref(t.id) !in ModuleRefs(ms);
  }

  /** A removed type's `NestedTypes` hold none of the removed types. */
  lemma RemovedHoldsNoNested(g: Graph, removed: seq<TypeNode>, t: TypeNode)
    requires UniqueIds(removed) && t in removed && TypeFits(g, t)
    ensures forall y :: y in Many(g[t.id], NestedTypes) ==> y !in Gone(removed)
  {
    forall y | y in Many(g[t.id], NestedTypes)
      ensures y !in Gone(removed)
    {
      var k :| 0 <= k < |t.nested| && TypeRefs(t.nested)[k] == y;
      ChildNotGone(removed, t, t.nested[k]);
    }
  }
}

=== FILE: walk_properties.dfy ===
/**
 * What the mark phase computes: exactly the objects reachable from the root
 * through the fields each overload reads, without passing through anything
 * already visited; each object is recorded and expanded once.
 */
module WalkProperties {
  import opened Cecil
  import opened Seqs
  import opened Policy
  import opened Walkies
  import opened Walking

  /**
   * A chain of successor steps none of whose objects is null or in `avoid`:
   * the shape of one descent of the depth-first walk.
   */
  ghost predicate IsPath(g: Graph, p: seq<Obj>, avoid: set<Obj>)
    decreases |p|
  {
    && |p| > 0
    && p[0] != Null && p[0] !in avoid
    && (|p| > 1 ==> p[1] in Succ(g, p[0]) && IsPath(g, p[1..], avoid))
  }

  /** `y` can be reached from `x` along the walked fields, avoiding `avoid`. */
  ghost predicate Reaches(g: Graph, x: Obj, y: Obj, avoid: set<Obj>) {
    exists p :: IsPath(g, p, avoid) && p[0] == x && p[|p| - 1] == y
  }

  /** Soundness: everything a walk adds is reachable from its root without crossing the prior set. */
  lemma {:induction false} WalkSound(g: Graph, w: Walkies, x: Obj)
    ensures forall y :: y in Walk(g, w, x).hash && y !in w.hash ==> Reaches(g, x, y, w.hash)
    decreases |Refs(g) - w.hash|, Rank(x), 0
  {
    if x != Null && x !in w.hash {
      var w' := Has(w, x).1;
      var xs := Succ(g, x);
      MeasureShrinks(Refs(g), w.hash, x);
      SuccRank(g, x);
      WalkEachSound(g, w', xs);
      var r := Walk(g, w, x);
      assert r == WalkEach(g, w', xs) && w'.hash == w.hash + {x};
      forall y | y in r.hash && y !in w.hash
        ensures Reaches(g, x, y, w.hash)
      {
        StepBack(g, x, y, w.hash, r.hash);
      }
    }
  }

  /** One step of WalkSound: `y` is the root itself or reached through one of its successors. */
  lemma StepBack(g: Graph, x: Obj, y: Obj, h: set<Obj>, r: set<Obj>)
    requires x != Null && x !in h
    requires y in r && y !in h
    requires forall z :: z in r && z !in h + {x} ==>
      exists i :: 0 <= i < |Succ(g, x)| && Reaches(g, Succ(g, x)[i], z, h + {x})
    ensures Reaches(g, x, y, h)
  {
    var xs := Succ(g, x);
    if y == x {
      assert IsPath(g, [x], h);
    } else {
      var i :| 0 <= i < |xs| && Reaches(g, xs[i], y, h + {x});
      var p :| IsPath(g, p, h + {x}) && p[0] == xs[i] && p[|p| - 1] == y;
      Prepend(g, x, p, h);
    }
  }

  /** A path from a successor of `x`, avoiding `x` too, extends to a path from `x`. */
  lemma Prepend(g: Graph, x: Obj, p: seq<Obj>, avoid: set<Obj>)
    requires x != Null && x !in avoid
    requires IsPath(g, p, avoid + {x}) && p[0] in Succ(g, x)
    ensures Reaches(g, x, p[|p| - 1], avoid)
  {
    Weaken(g, p, avoid, avoid + {x});
    PathCons(g, x, p, avoid);
    var q := [x] + p;
    assert q[0] == x && q[|q| - 1] == p[|p| - 1];
  }

  /** A path from a successor of `x` extends to one from `x`. */
  lemma PathCons(g: Graph, x: Obj, p: seq<Obj>, avoid: set<Obj>)
    requires x != Null && x !in avoid
    requires IsPath(g, p, avoid) && p[0] in Succ(g, x)
    ensures IsPath(g, [x] + p, avoid)
  {
    var q := [x] + p;
    assert q[1..] == p && q[1] == p[0];
  }

  /** A path avoiding a larger set avoids a smaller one. */
  lemma {:induction false} Weaken(g: Graph, p: seq<Obj>, avoid: set<Obj>, avoid': set<Obj>)
    requires avoid <= avoid'
    requires IsPath(g, p, avoid')
    ensures IsPath(g, p, avoid)
    decreases |p|
  {
    if |p| > 1 {
      Weaken(g, p[1..], avoid, avoid');
    }
  }

  lemma WeakenReaches(g: Graph, x: Obj, y: Obj, avoid: set<Obj>, avoid': set<Obj>)
    requires avoid <= avoid'
    requires Reaches(g, x, y, avoid')
    ensures Reaches(g, x, y, avoid)
  {
    var p :| IsPath(g, p, avoid') && p[0] == x && p[|p| - 1] == y;
    Weaken(g, p, avoid, avoid');
  }

  lemma {:induction false} WalkEachSound(g: Graph, w: Walkies, xs: seq<Obj>)
    ensures forall y :: y in WalkEach(g, w, xs).hash && y !in w.hash ==>
      exists i :: 0 <= i < |xs| && Reaches(g, xs[i], y, w.hash)
    decreases |Refs(g) - w.hash|, MaxRank(xs), |xs|
  {
    if xs != [] {
      var w1 := Walk(g, w, xs[0]);
      var r := WalkEach(g, w, xs);
      assert r == WalkEach(g, w1, xs[1..]);
      MeasureMonotone(Refs(g), w.hash, w1.hash);
      WalkSound(g, w, xs[0]);
      WalkEachSound(g, w1, xs[1..]);
      forall y | y in r.hash && y !in w.hash
        ensures exists i :: 0 <= i < |xs| && Reaches(g, xs[i], y, w.hash)
      {
        EachStepBack(g, xs, y, w.hash, w1.hash, r.hash);
      }
    }
  }

  /** One step of WalkEachSound: `y` came from the first element's walk or from the rest's. */
  lemma EachStepBack(g: Graph, xs: seq<Obj>, y: Obj, h: set<Obj>, h1: set<Obj>, r: set<Obj>)
    requires xs != [] && h <= h1
    requires y in r && y !in h
    requires forall z :: z in h1 && z !in h ==> Reaches(g, xs[0], z, h)
    requires forall z :: z in r && z !in h1 ==> exists i :: 0 <= i < |xs[1..]| && Reaches(g, xs[1..][i], z, h1)
    ensures exists i :: 0 <= i < |xs| && Reaches(g, xs[i], y, h)
  {
    if y in h1 {
      assert Reaches(g, xs[0], y, h);
    } else {
      var j :| 0 <= j < |xs[1..]| && Reaches(g, xs[1..][j], y, h1);
      assert xs[1..][j] == xs[j + 1];
      WeakenReaches(g, xs[j + 1], y, h, h1);
    }
  }

  /** Completeness: the end of every path from the root that avoids the prior set is recorded. */
  lemma WalkComplete(g: Graph, w: Walkies, p: seq<Obj>)
    requires IsPath(g, p, w.hash)
    ensures p[|p| - 1] in Walk(g, w, p[0]).hash
  {
    var r := Walk(g, w, p[0]);
    PathStaysWithin(g, p, w.hash, r.hash);
  }

  /**
   * A set whose members outside `avoid` are all expanded within it keeps
   * every path that avoids `avoid` and starts inside it.
   */
  lemma {:induction false} PathStaysWithin(g: Graph, p: seq<Obj>, avoid: set<Obj>, c: set<Obj>)
    requires IsPath(g, p, avoid) && p[0] in c
    requires forall y :: y in c && y !in avoid ==> Expanded(g, c, y)
    ensures p[|p| - 1] in c
    decreases |p|
  {
    if |p| > 1 {
      assert Expanded(g, c, p[0]);
      PathStaysWithin(g, p[1..], avoid, c);
    }
  }

  /**
   * The set after a walk is the prior set plus exactly the objects reachable
   * from the root through the walked fields without crossing the prior set.
   */
  lemma WalkIsReachability(g: Graph, w: Walkies, x: Obj, y: Obj)
    ensures y in Walk(g, w, x).hash <==> y in w.hash || Reaches(g, x, y, w.hash)
  {
    WalkSound(g, w, x);
    if Reaches(g, x, y, w.hash) {
      var p :| IsPath(g, p, w.hash) && p[0] == x && p[|p| - 1] == y;
      WalkComplete(g, w, p);
    }
  }

  /** Walking an object that is null or already recorded changes nothing. */
  lemma WalkSeenIsNoOp(g: Graph, w: Walkies, x: Obj)
    requires x == Null || x in w.hash
    ensures Walk(g, w, x) == w
  {
  }

  /** Walking the same roots a second time changes nothing. */
  lemma {:induction false} WalkEachIdempotent(g: Graph, w: Walkies, xs: seq<Obj>)
    ensures WalkEach(g, WalkEach(g, w, xs), xs) == WalkEach(g, w, xs)
  {
    var r := WalkEach(g, w, xs);
    AllSeenIsNoOp(g, r, xs);
  }

  lemma {:induction false} AllSeenIsNoOp(g: Graph, w: Walkies, xs: seq<Obj>)
    requires forall y :: y in xs ==> y == Null || y in w.hash
    ensures WalkEach(g, w, xs) == w
  {
    if xs != [] {
      assert Walk(g, w, xs[0]) == w;
      AllSeenIsNoOp(g, w, xs[1..]);
    }
  }

  /**
   * At-most-once expansion: the walk appends each object it records exactly
   * once, after everything recorded before, and never an object already there;
   * the newly appended objects are exactly the newly visited ones.
   */
  lemma WalkRecordsOnce(g: Graph, w: Walkies, x: Obj)
    requires Valid(w)
    ensures var r := Walk(g, w, x);
      && w.order <= r.order
      && Distinct(r.order)
      && (forall i :: |w.order| <= i < |r.order| ==> r.order[i] !in w.hash && r.order[i] in r.hash)
      && Count(r) == Count(w) + (|r.order| - |w.order|)
  {
    var r := Walk(g, w, x);
    CountIsInsertions(w);
    CountIsInsertions(r);
  }

  /** After a walk from a fresh state, the visited set is closed under the walked fields. */
  lemma FreshWalkIsClosed(g: Graph, w: Walkies, x: Obj)
    requires w.hash == {}
    ensures forall y :: y in Walk(g, w, x).hash ==> Expanded(g, Walk(g, w, x).hash, y)
  {
  }

  /** A set that contains the root and is closed under the walked fields bounds what the walk adds. */
  lemma WalkStaysWithin(g: Graph, w: Walkies, x: Obj, c: set<Obj>)
    requires x in c
    requires forall y :: y in c ==> Expanded(g, c, y)
    ensures Walk(g, w, x).hash <= w.hash + c
  {
    WalkSound(g, w, x);
    forall y | y in Walk(g, w, x).hash && y !in w.hash
      ensures y in c
    {
      var p :| IsPath(g, p, w.hash) && p[0] == x && p[|p| - 1] == y;
      PathStaysWithin(g, p, w.hash, c);
    }
  }

  /** Objects of a class with no expanding overload, and boxed values, are recorded and nothing more. */
  lemma MatchRecordsLeaves(g: Graph, w: Walkies, x: Obj)
    requires x.Boxed? || (x.Ref? && (x.id !in g || g[x.id].kind in {ModuleReference, Opaque}))
    requires x !in w.hash
    ensures Walk(g, w, x).hash == w.hash + {x}
    ensures Walk(g, w, x).order == w.order + [x]
  {
    assert Succ(g, x) == [] by {
      if x.Ref? && x.id in g {
        assert Statements(g[x.id].kind) == [];
      }
    }
    assert Walk(g, w, x) == WalkEach(g, Has(w, x).1, []);
  }

  lemma GatherCons(g: Graph, n: Node, s: Step, steps: seq<Step>)
    ensures Gather(g, n, [s] + steps) == StepTargets(g, n, s) + Gather(g, n, steps)
  {
    assert ([s] + steps)[1..] == steps;
  }

  /** Gather over five statements, unrolled. */
  lemma Gather5(g: Graph, n: Node, s1: Step, s2: Step, s3: Step, s4: Step, s5: Step)
    ensures Gather(g, n, [s1, s2, s3, s4, s5]) == StepTargets(g, n, s1) + (StepTargets(g, n, s2)
      + (StepTargets(g, n, s3) + (StepTargets(g, n, s4) + StepTargets(g, n, s5))))
  {
    GatherCons(g, n, s5, []);
    assert Gather(g, n, [s5]) == StepTargets(g, n, s5);
    GatherCons(g, n, s4, [s5]);
    GatherCons(g, n, s3, [s4, s5]);
    GatherCons(g, n, s2, [s3, s4, s5]);
    GatherCons(g, n, s1, [s2, s3, s4, s5]);
  }

  /** Gather over three statements, unrolled. */
  lemma Gather3(g: Graph, n: Node, s1: Step, s2: Step, s3: Step)
    ensures Gather(g, n, [s1, s2, s3]) == StepTargets(g, n, s1) + (StepTargets(g, n, s2) + StepTargets(g, n, s3))
  {
    GatherCons(g, n, s3, []);
    assert Gather(g, n, [s3]) == StepTargets(g, n, s3);
    GatherCons(g, n, s2, [s3]);
    GatherCons(g, n, s1, [s2, s3]);
  }

  /** The assembly overload walks EntryPoint, MainModule, SecurityDeclarations, CustomAttributes and Modules. */
  lemma ExpandAssembly(g: Graph, n: Node)
    requires n.kind == AssemblyDefinition
    ensures Expand(g, n) == [One(n, EntryPoint), One(n, MainModule)]
      + (Many(n, SecurityDeclarations) + (Many(n, CustomAttributes) + Many(n, Modules)))
  {
    Gather5(g, n, Follow(EntryPoint), Follow(MainModule), FollowAll(SecurityDeclarations),
            FollowAll(CustomAttributes), FollowAll(Modules));
  }

  /** The module overload walks Assembly, EntryPoint, CustomAttributes, ModuleReferences and the public Types. */
  lemma ExpandModule(g: Graph, n: Node)
    requires n.kind == ModuleDefinition
    ensures Expand(g, n) == [One(n, Assembly), One(n, EntryPoint)]
      + (Many(n, CustomAttributes) + (Many(n, ModuleReferences) + PublicOnly(g, Many(n, Types))))
  {
    Gather5(g, n, Follow(Assembly), Follow(EntryPoint), FollowAll(CustomAttributes),
            FollowAll(ModuleReferences), FollowPublic(Types));
  }

  /**
   * The type definition overload walks BaseType, DeclaringType, Module, the
   * attributes, events, fields, generic parameters, interfaces, methods,
   * security declarations and properties, and the public nested types.
   */
  lemma ExpandTypeDefinition(g: Graph, n: Node)
    requires n.kind == TypeDefinition
    ensures forall x :: x in Expand(g, n) <==>
      || x in [One(n, BaseType), One(n, DeclaringType), One(n, Module)]
      || x in Many(n, CustomAttributes) || x in Many(n, Events) || x in Many(n, Fields)
      || x in Many(n, GenericParameters) || x in Many(n, Interfaces) || x in Many(n, Methods)
      || x in Many(n, SecurityDeclarations) || x in Many(n, Properties)
      || x in PublicOnly(g, Many(n, NestedTypes))
  {
    TypeDefinitionOrder(g, n);
  }

  /** Gather over the six statements `front` followed by `rest`, unrolled. */
  lemma Gather6(g: Graph, n: Node, front: seq<Step>, rest: seq<Step>)
    requires |front| == 6
    ensures Gather(g, n, front + rest) == StepTargets(g, n, front[0]) + (StepTargets(g, n, front[1])
      + (StepTargets(g, n, front[2]) + (StepTargets(g, n, front[3]) + (StepTargets(g, n, front[4])
      + (StepTargets(g, n, front[5]) + Gather(g, n, rest))))))
  {
    var s1 := front + rest;
    var s2 := front[1..] + rest;
    var s3 := front[2..] + rest;
    var s4 := front[3..] + rest;
    var s5 := front[4..] + rest;
    var s6 := front[5..] + rest;
    assert s1[1..] == s2 && s2[1..] == s3 && s3[1..] == s4 && s4[1..] == s5 && s5[1..] == s6 && s6[1..] == rest;
    assert s1[0] == front[0] && s2[0] == front[1] && s3[0] == front[2];
    assert s4[0] == front[3] && s5[0] == front[4] && s6[0] == front[5];
    GatherFront(g, n, s1);
    GatherFront(g, n, s2);
    GatherFront(g, n, s3);
    GatherFront(g, n, s4);
    GatherFront(g, n, s5);
    GatherFront(g, n, s6);
  }

  /** One step of Gather on a non-empty statement list. */
  lemma GatherFront(g: Graph, n: Node, steps: seq<Step>)
    requires steps != []
    ensures Gather(g, n, steps) == StepTargets(g, n, steps[0]) + Gather(g, n, steps[1..])
  {
  }

  /** The same list in walking order, concatenated from the right as Gather builds it. */
  lemma TypeDefinitionOrder(g: Graph, n: Node)
    requires n.kind == TypeDefinition
    ensures Expand(g, n) == [One(n, BaseType)] + ([One(n, DeclaringType)] + ([One(n, Module)]
      + (Many(n, CustomAttributes) + (Many(n, Events) + (Many(n, Fields) + (Many(n, GenericParameters)
      + (Many(n, Interfaces) + (Many(n, Methods) + (Many(n, SecurityDeclarations) + (Many(n, Properties)
      + (PublicOnly(g, Many(n, NestedTypes)) + [])))))))))))
  {
    var front := [Follow(BaseType), Follow(DeclaringType), Follow(Module), FollowAll(CustomAttributes),
                  FollowAll(Events), FollowAll(Fields)];
    var back := [FollowAll(GenericParameters), FollowAll(Interfaces), FollowAll(Methods),
                 FollowAll(SecurityDeclarations), FollowAll(Properties), FollowPublic(NestedTypes)];
    assert Statements(TypeDefinition) == front + back;
    Gather6(g, n, front, back);
    Gather6(g, n, back, []);
    assert back + [] == back;
  }

  /** The type reference overload walks DeclaringType, Module and GenericParameters. */
  lemma ExpandTypeReference(g: Graph, n: Node)
    requires n.kind == TypeReference
    ensures Expand(g, n) == [One(n, DeclaringType), One(n, Module)] + Many(n, GenericParameters)
  {
    Gather3(g, n, Follow(DeclaringType), Follow(Module), FollowAll(GenericParameters));
  }

  /**
   * The type specification overload walks DeclaringType, ElementType, Module,
   * GetElementType() and GenericParameters, and nothing else.
   */
  lemma ExpandTypeSpecification(g: Graph, n: Node)
    requires n.kind == TypeSpecification
    ensures Expand(g, n) == [One(n, DeclaringType), One(n, ElementType), One(n, Module), One(n, GetElementType)]
      + Many(n, GenericParameters)
  {
    Gather5(g, n, Follow(DeclaringType), Follow(ElementType), Follow(Module), Follow(GetElementType),
            FollowAll(GenericParameters));
  }

  /** The custom attribute overload walks AttributeType, Constructor, and its arguments, fields and properties. */
  lemma ExpandCustomAttribute(g: Graph, n: Node)
    requires n.kind == CustomAttribute
    ensures Expand(g, n) == [One(n, AttributeType), One(n, Constructor)]
      + (Many(n, ConstructorArguments) + (Many(n, Fields) + Many(n, Properties)))
  {
    Gather5(g, n, Follow(AttributeType), Follow(Constructor), FollowAll(ConstructorArguments),
            FollowAll(Fields), FollowAll(Properties));
  }

  /**
   * The classes whose overload walks DeclaringType: the five definitions,
   * type references, generic parameters, type specifications, method
   * references, and the field references of MemberReference's last arm.
   */
  predicate HasDeclaringTypeEdge(k: Kind) {
    k in {TypeDefinition, MethodDefinition, FieldDefinition, PropertyDefinition, EventDefinition,
          TypeReference, GenericParameter, TypeSpecification, MethodReference, FieldReference}
  }

  /** HasDeclaringTypeEdge names exactly the classes with a `Walk(x.DeclaringType)` statement. */
  lemma DeclaringTypeKinds(k: Kind)
    ensures HasDeclaringTypeEdge(k) <==> Follow(DeclaringType) in Statements(k)
  {
    if HasDeclaringTypeEdge(k) {
      assert Statements(k)[DeclaringTypeIndex(k)] == Follow(DeclaringType);
    } else {
      NoDeclaringTypeStatement(k);
    }
  }

  /** Where DeclaringType stands among the statements of an overload that walks it. */
  function DeclaringTypeIndex(k: Kind): nat {
    if k == MethodDefinition then 2
    else if k in {TypeDefinition, FieldDefinition, PropertyDefinition, EventDefinition} then 1
    else 0
  }

  lemma NoDeclaringTypeStatement(k: Kind)
    requires !HasDeclaringTypeEdge(k)
    ensures Follow(DeclaringType) !in Statements(k)
  {
    match k
    case AssemblyDefinition =>
    case ModuleDefinition =>
    case ModuleReference =>
    case CallSite =>
    case ParameterDefinition =>
    case MethodReturnType =>
    case VariableDefinition =>
    case MethodBody =>
    case Instruction =>
    case ExceptionHandler =>
    case CustomAttribute =>
    case SecurityDeclaration =>
    case SecurityAttribute =>
    case InterfaceImplementation =>
    case MethodDebugInformation =>
    case ScopeDebugInformation =>
    case ConstantDebugInformation =>
    case ImportDebugInformation =>
    case ImportTarget =>
    case Opaque =>
    case _ => assert false;
  }

  /** Everything one statement of an object's overload reads is among the object's successors. */
  lemma StatementIsWalked(g: Graph, id: nat, i: nat, y: Obj)
    requires id in g && i < |Statements(g[id].kind)|
    requires y in StepTargets(g, g[id], Statements(g[id].kind)[i])
    ensures y in Succ(g, Ref(id))
  {
    GatherHas(g, g[id], Statements(g[id].kind), y);
  }

  lemma DeclaringTypeIsWalked(g: Graph, id: nat)
    requires id in g && HasDeclaringTypeEdge(g[id].kind)
    ensures One(g[id], DeclaringType) in Succ(g, Ref(id))
  {
    var k := g[id].kind;
    var i := DeclaringTypeIndex(k);
    assert Statements(k)[i] == Follow(DeclaringType);
    StatementIsWalked(g, id, i, One(g[id], DeclaringType));
  }

  /**
   * Every type, member, field, property or event a walk records, and every
   * reference to one, has its declaring type recorded too.
   */
  lemma WalkClosesDeclaringTypes(g: Graph, w: Walkies, x: Obj, id: nat)
    requires Ref(id) in Walk(g, w, x).hash && Ref(id) !in w.hash
    requires id in g && HasDeclaringTypeEdge(g[id].kind)
    ensures One(g[id], DeclaringType) == Null || One(g[id], DeclaringType) in Walk(g, w, x).hash
  {
    DeclaringTypeIsWalked(g, id);
  }

  /**
   * Walking a module follows the public entries of its top-level type
   * collection and, among the entries it reads from nowhere else, only those.
   */
  lemma ModuleWalksPublicTypes(g: Graph, id: nat, t: Obj)
    requires id in g && g[id].kind == ModuleDefinition
    requires t in Many(g[id], Types)
    ensures IsPublic(g, t) ==> t in Succ(g, Ref(id))
    ensures !IsPublic(g, t) && t !in [One(g[id], Assembly), One(g[id], EntryPoint)]
      && t !in Many(g[id], CustomAttributes) && t !in Many(g[id], ModuleReferences)
      ==> t !in Succ(g, Ref(id))
  {
    ExpandModule(g, g[id]);
  }

  /**
   * Walking a type definition follows all of its events, fields, methods and
   * properties, but only the public entries of its nested types.
   */
  lemma TypeWalksMembersAndPublicNested(g: Graph, id: nat, t: Obj)
    requires id in g && g[id].kind == TypeDefinition
    ensures t in Many(g[id], Events) + Many(g[id], Fields) + Many(g[id], Methods) + Many(g[id], Properties)
      ==> t in Succ(g, Ref(id))
    ensures t in Many(g[id], NestedTypes) && IsPublic(g, t) ==> t in Succ(g, Ref(id))
    ensures t in Many(g[id], NestedTypes) && !IsPublic(g, t)
      && t !in [One(g[id], BaseType), One(g[id], DeclaringType), One(g[id], Module)]
      && t !in Many(g[id], CustomAttributes) + Many(g[id], Events) + Many(g[id], Fields)
      && t !in Many(g[id], GenericParameters) + Many(g[id], Interfaces) + Many(g[id], Methods)
      && t !in Many(g[id], SecurityDeclarations) + Many(g[id], Properties)
      ==> t !in Succ(g, Ref(id))
  {
    ExpandTypeDefinition(g, g[id]);
  }

  /**
   * A method body walks every instruction, and every instruction its operand
   * (through Match) and both neighbours; so after a walk from a fresh state
   * that records a body, all of these are recorded.
   */
  lemma BodyReachesOperands(g: Graph, w: Walkies, x: Obj, body: nat, ins: Obj)
    requires w.hash == {}
    requires Ref(body) in Walk(g, w, x).hash
    requires body in g && g[body].kind == MethodBody
    requires ins in Many(g[body], Instructions) && ins.Ref? && ins.id in g && g[ins.id].kind == Instruction
    ensures ins in Walk(g, w, x).hash
    ensures forall f :: f in {Operand, Previous, Next} && One(g[ins.id], f) != Null ==>
      One(g[ins.id], f) in Walk(g, w, x).hash
  {
    var r := Walk(g, w, x);
    assert Expanded(g, r.hash, Ref(body));
    StatementIsWalked(g, body, 3, ins);
    assert Expanded(g, r.hash, ins);
    var n := g[ins.id];
    StatementIsWalked(g, ins.id, 0, One(n, Operand));
    StatementIsWalked(g, ins.id, 1, One(n, Previous));
    StatementIsWalked(g, ins.id, 2, One(n, Next));
  }
}

=== FILE: walkies.dfy ===
/**
 * The state of a Walkies instance (Walkies.cs): the exemption set built by the
 * constructor, the visited HashSet, and the order in which that set received
 * its elements (the order it enumerates them in).
 */
module Walkies {
  import opened Wrappers
  import opened Cecil
  import opened Seqs
  import opened Policy

  datatype Walkies = Walkies(except: seq<string>, hash: set<Obj>, order: seq<Obj>)

  /** What every reachable state satisfies: both sets hold each element once, null is never recorded. */
  ghost predicate Valid(w: Walkies) {
    && Distinct(w.except)
    && (forall s :: s in w.except ==> !IsNullOrWhiteSpace(Some(s)))
    && Distinct(w.order)
    && (forall x :: x in w.hash <==> x in w.order)
    && Null !in w.hash
  }

  /** The constructor: an empty visited set and the exemption set of `except`. */
  function New(except: Option<seq<Option<string>>>): (w: Walkies)
    ensures Valid(w)
    ensures w.hash == {} && w.order == []
    ensures forall s :: s in w.except <==> except.Some? && Some(s) in except.value && !IsNullOrWhiteSpace(Some(s))
  {
    Walkies(Exemptions(except), {}, [])
  }

  /** Count: the number of objects visited so far. */
  function Count(w: Walkies): nat {
    |w.hash|
  }

  /** In a valid state the set holds exactly as many objects as it has received. */
  lemma {:induction false} CountIsInsertions(w: Walkies)
    requires Valid(w)
    ensures Count(w) == |w.order|
  {
    DistinctCard(w.order, w.hash);
  }

  lemma {:induction false} DistinctCard(s: seq<Obj>, h: set<Obj>)
    requires Distinct(s)
    requires forall x :: x in h <==> x in s
    ensures |h| == |s|
    decreases |s|
  {
    if s != [] {
      var last := s[|s| - 1];
      var prefix := s[..|s| - 1];
      assert s == prefix + [last];
      assert last !in prefix;
      DistinctCard(prefix, h - {last});
    }
  }

  /**
   * Has: true when `x` is null or already visited, leaving the state alone;
   * otherwise `x` is added and the answer is false.
   */
  function Has(w: Walkies, x: Obj): (r: (bool, Walkies))
    ensures r.0 <==> x == Null || x in w.hash
    ensures r.0 ==> r.1 == w
    ensures !r.0 ==> r.1 == Walkies(w.except, w.hash + {x}, w.order + [x])
    ensures Valid(w) ==> Valid(r.1)
  {
    if x == Null || x in w.hash then (true, w)
    else (false, Walkies(w.except, w.hash + {x}, w.order + [x]))
  }

  /** Has only ever adds: the set after the call contains the set before it and `x` unless null. */
  lemma HasGrows(w: Walkies, x: Obj)
    ensures w.hash <= Has(w, x).1.hash
    ensures x != Null ==> x in Has(w, x).1.hash
    ensures Count(Has(w, x).1) == Count(w) + (if Has(w, x).0 then 0 else 1)
  {
  }

  /**
   * AnyEqual: a type survives the sweep when it was visited, or when its full
   * name, name or namespace is one of the exemption strings (exact, ordinal).
   */
  predicate AnyEqual(w: Walkies, t: TypeNode) {
    Ref(t.id) in w.hash || t.fullName in w.except || t.name in w.except || t.ns in w.except
  }

  /** A type of the global namespace (empty namespace) is never exempted through its namespace. */
  lemma GlobalNamespaceNeverExempts(w: Walkies, t: TypeNode)
    requires Valid(w)
    requires t.ns == ""
    ensures AnyEqual(w, t) <==> Ref(t.id) in w.hash || t.fullName in w.except || t.name in w.except
  {
  }

  function KeepLine(x: string): string {
    "Configured to keep \"" + x + "\"."
  }

  function BegoneLine(x: string): string {
    "Begone, " + x + "!"
  }

  /** Display: one line per exemption entry, in the set's order. */
  function Display(w: Walkies): (r: seq<string>)
    ensures |r| == |w.except|
    ensures forall i :: 0 <= i < |r| ==> r[i] == KeepLine(w.except[i])
  {
    seq(|w.except|, i requires 0 <= i < |w.except| => KeepLine(w.except[i]))
  }

  /**
   * What a fresh instance displays: no line twice, and a keep line for a
   * string exactly when it is a non-null, non-blank entry of `except`.
   */
  lemma DisplayNew(except: Option<seq<Option<string>>>)
    ensures var r := Display(New(except));
      && Distinct(r)
      && forall s :: KeepLine(s) in r <==> except.Some? && Some(s) in except.value && !IsNullOrWhiteSpace(Some(s))
  {
    var e := New(except).except;
    var r := Display(New(except));
    forall i, j | 0 <= i < j < |r|
      ensures r[i] != r[j]
    {
      if r[i] == r[j] {
        KeepLineInjective(e[i], e[j]);
      }
    }
    forall s
      ensures KeepLine(s) in r <==> s in e
    {
      if KeepLine(s) in r {
        var i :| 0 <= i < |r| && r[i] == KeepLine(s);
        KeepLineInjective(e[i], s);
      }
      if s in e {
        var i :| 0 <= i < |e| && e[i] == s;
        assert r[i] == KeepLine(s);
      }
    }
  }

  /** Different exemptions give different keep lines. */
  lemma KeepLineInjective(a: string, b: string)
    requires KeepLine(a) == KeepLine(b)
    ensures a == b
  {
    var p := "Configured to keep \"";
    assert KeepLine(a) == p + a + "\"." && KeepLine(b) == p + b + "\".";
    assert |a| == |b|;
    assert a == KeepLine(a)[|p|..|p| + |a|];
    assert b == KeepLine(b)[|p|..|p| + |b|];
  }
}

=== FILE: walking.dfy ===
/**
 * The mark phase (Walkies.Walk.cs): Match and the Walk overloads.
 *
 * Every overload first asks Has and stops when the object is null or already
 * visited; otherwise it walks a fixed list of the object's fields. Which list
 * is read depends only on the object's runtime class, so the overloads that
 * merely dispatch (Match, the MemberReference and TypeReference switches,
 * MethodReference to MethodDefinition, ModuleReference to ModuleDefinition)
 * collapse into the one function Walk, and `Succ` gives, per class, the
 * ordered list of fields its overload follows.
 */
module Walking {
  import opened Cecil
  import opened Seqs
  import opened Policy
  import opened Walkies

  /**
   * One statement of an overload body: `Walk(x.F)` (or `Match(x.F)`, which
   * routes the same way), `x.F?.Select(Walk)`, or
   * `x.F?.Where(IsPublic).Select(Walk)`.
   */
  datatype Step = Follow(field: Field) | FollowAll(field: Field) | FollowPublic(field: Field)

  /** The statements of the overload that expands an object of class `k`, in source order. */
  function Statements(k: Kind): seq<Step> {
    match k
    case AssemblyDefinition =>
      [Follow(EntryPoint), Follow(MainModule), FollowAll(SecurityDeclarations),
       FollowAll(CustomAttributes), FollowAll(Modules)]
    case ModuleDefinition =>
      [Follow(Assembly), Follow(EntryPoint), FollowAll(CustomAttributes),
       FollowAll(ModuleReferences), FollowPublic(Types)]
    case ModuleReference => []
    case TypeDefinition =>
      [Follow(BaseType), Follow(DeclaringType), Follow(Module), FollowAll(CustomAttributes),
       FollowAll(Events), FollowAll(Fields), FollowAll(GenericParameters), FollowAll(Interfaces),
       FollowAll(Methods), FollowAll(SecurityDeclarations), FollowAll(Properties),
       FollowPublic(NestedTypes)]
    case TypeReference =>
      [Follow(DeclaringType), Follow(Module), FollowAll(GenericParameters)]
    case GenericParameter =>
      [Follow(DeclaringType), Follow(Module), FollowAll(GenericParameters)]
    case TypeSpecification =>
      [Follow(DeclaringType), Follow(ElementType), Follow(Module), Follow(GetElementType),
       FollowAll(GenericParameters)]
    case MethodDefinition =>
      [Follow(Field.Body), Follow(DebugInformation), Follow(DeclaringType), Follow(Field.MethodReturnType),
       Follow(Module), Follow(ReturnType), FollowAll(SecurityDeclarations),
       FollowAll(CustomAttributes), FollowAll(GenericParameters), FollowAll(Overrides),
       FollowAll(Parameters)]
    case MethodReference =>
      [Follow(DeclaringType), Follow(Field.MethodReturnType), Follow(Module), Follow(ReturnType),
       FollowAll(GenericParameters), FollowAll(Parameters)]
    case CallSite =>
      [Follow(Field.MethodReturnType), Follow(ReturnType), FollowAll(Parameters)]
    case FieldDefinition =>
      [Follow(Constant), Follow(DeclaringType), Follow(FieldType), Follow(Module),
       FollowAll(CustomAttributes)]
    case FieldReference =>
      [Follow(DeclaringType)]
    case PropertyDefinition =>
      [Follow(Constant), Follow(DeclaringType), Follow(GetMethod), Follow(Module),
       Follow(PropertyType), Follow(SetMethod), FollowAll(CustomAttributes),
       FollowAll(OtherMethods), FollowAll(Parameters)]
    case EventDefinition =>
      [Follow(AddMethod), Follow(DeclaringType), Follow(EventType), Follow(InvokeMethod),
       Follow(RemoveMethod), FollowAll(CustomAttributes), FollowAll(OtherMethods)]
    case ParameterDefinition =>
      [Follow(Constant), Follow(Method), Follow(ParameterType), FollowAll(CustomAttributes)]
    case MethodReturnType =>
      [Follow(Constant), Follow(Method), Follow(ReturnType), FollowAll(CustomAttributes)]
    case VariableDefinition =>
      [Follow(VariableType)]
    case MethodBody =>
      [Follow(Method), Follow(ThisParameter), FollowAll(ExceptionHandlers),
       FollowAll(Instructions), FollowAll(Variables)]
    case Instruction =>
      [Follow(Operand), Follow(Previous), Follow(Next)]
    case ExceptionHandler =>
      [Follow(CatchType), Follow(FilterStart), Follow(HandlerEnd), Follow(HandlerStart),
       Follow(TryEnd), Follow(TryStart)]
    case CustomAttribute =>
      [Follow(AttributeType), Follow(Constructor), FollowAll(ConstructorArguments),
       FollowAll(Fields), FollowAll(Properties)]
    case SecurityDeclaration =>
      [FollowAll(SecurityAttributes)]
    case SecurityAttribute =>
      [Follow(AttributeType), FollowAll(Fields), FollowAll(Properties)]
    case InterfaceImplementation =>
      [Follow(InterfaceType), FollowAll(CustomAttributes)]
    case MethodDebugInformation =>
      [Follow(Scope), Follow(Method), Follow(StateMachineKickOffMethod), FollowAll(GetScopes)]
    case ScopeDebugInformation =>
      [Follow(Import), FollowAll(Scopes), FollowAll(Constants)]
    case ConstantDebugInformation =>
      [Follow(ConstantType), Follow(Value)]
    case ImportDebugInformation =>
      [Follow(Parent), FollowAll(Targets)]
    case ImportTarget =>
      [Follow(Type)]
    case Opaque => []
  }

  /** The objects one statement walks. */
  function StepTargets(g: Graph, n: Node, s: Step): seq<Obj> {
    match s
    case Follow(f) => [One(n, f)]
    case FollowAll(f) => Many(n, f)
    case FollowPublic(f) => PublicOnly(g, Many(n, f))
  }

  /** The objects a sequence of statements walks, in order. */
  function Gather(g: Graph, n: Node, steps: seq<Step>): seq<Obj> {
    if steps == [] then [] else StepTargets(g, n, steps[0]) + Gather(g, n, steps[1..])
  }

  /** An object is gathered exactly when one of the statements walks it. */
  lemma {:induction false} GatherHas(g: Graph, n: Node, steps: seq<Step>, x: Obj)
    ensures x in Gather(g, n, steps) <==> exists i :: 0 <= i < |steps| && x in StepTargets(g, n, steps[i])
  {
    if steps != [] {
      GatherHas(g, n, steps[1..], x);
      if x in Gather(g, n, steps[1..]) {
        var i :| 0 <= i < |steps[1..]| && x in StepTargets(g, n, steps[1..][i]);
        assert steps[1..][i] == steps[i + 1];
      }
      if exists i :: 0 <= i < |steps| && x in StepTargets(g, n, steps[i]) {
        var i :| 0 <= i < |steps| && x in StepTargets(g, n, steps[i]);
        if i > 0 {
          assert steps[i] == steps[1..][i - 1];
        }
      }
    }
  }

  /** The fields the overload for `n`'s class walks, in the order it walks them. */
  function Expand(g: Graph, n: Node): seq<Obj> {
    Gather(g, n, Statements(n.kind))
  }

  /**
   * The objects walked right after `x` is newly recorded. An attribute
   * argument walks its type (not its value), a named argument walks its
   * argument; boxed values and objects of classes without an overload are
   * recorded and not expanded.
   */
  function Succ(g: Graph, x: Obj): seq<Obj> {
    match x
    case Ref(id) => if id in g then Expand(g, g[id]) else []
    case Argument(t, _) => [t]
    case Named(_, a) => [a]
    case _ => []
  }

  /** Every successor of `x` is null or already in `s`. */
  ghost predicate Expanded(g: Graph, s: set<Obj>, x: Obj) {
    forall y :: y in Succ(g, x) ==> y == Null || y in s
  }

  /**
   * What a walk promises about the state it returns: the same instance
   * configuration, a set that only grew, an insertion order extended at its
   * end, validity kept, and every object it added expanded.
   */
  ghost predicate Grows(g: Graph, w: Walkies, r: Walkies) {
    && r.except == w.except
    && w.hash <= r.hash
    && w.order <= r.order
    && (Valid(w) ==> Valid(r))
    && (forall y :: y in r.hash && y !in w.hash ==> Expanded(g, r.hash, y))
  }

  /** Nesting depth of the attribute-argument structs, for termination. */
  function Rank(x: Obj): nat {
    match x
    case Argument(t, _) => 1 + Rank(t)
    case Named(_, a) => 1 + Rank(a)
    case _ => 1
  }

  function MaxRank(xs: seq<Obj>): (r: nat)
    ensures forall x :: x in xs ==> Rank(x) <= r
  {
    if xs == [] then 0
    else
      var m := MaxRank(xs[1..]);
      if Rank(xs[0]) < m then m else Rank(xs[0])
  }

  /**
   * Walk (and Match): test-and-set `x`; when it is new, walk its successors
   * one after the other, each against the set the previous ones left.
   */
  function Walk(g: Graph, w: Walkies, x: Obj): (r: Walkies)
    ensures Grows(g, w, r)
    ensures x == Null || x in r.hash
    ensures x == Null || x in w.hash ==> r == w
    ensures x != Null && x !in w.hash ==> x in r.hash && x !in w.hash && Expanded(g, r.hash, x)
    decreases |Refs(g) - w.hash|, Rank(x), 0
  {
    var (seen, w') := Has(w, x);
    if seen then w
    else
      MeasureShrinks(Refs(g), w.hash, x);
      SuccRank(g, x);
      var r := WalkEach(g, w', Succ(g, x));
      GrowsAfterHas(g, w, x, r);
      r
  }

  /** `xs.Select(Walk).Enumerate()`: walk every element, in order. */
  function WalkEach(g: Graph, w: Walkies, xs: seq<Obj>): (r: Walkies)
    ensures Grows(g, w, r)
    ensures forall y :: y in xs ==> y == Null || y in r.hash
    decreases |Refs(g) - w.hash|, MaxRank(xs), |xs|
  {
    if xs == [] then w
    else
      var w1 := Walk(g, w, xs[0]);
      MeasureMonotone(Refs(g), w.hash, w1.hash);
      WalkEach(g, w1, xs[1..])
  }

  /** Recording `x` and then walking all its successors grows the state, with `x` expanded. */
  lemma GrowsAfterHas(g: Graph, w: Walkies, x: Obj, r: Walkies)
    requires x != Null && x !in w.hash
    requires Grows(g, Has(w, x).1, r)
    requires forall y :: y in Succ(g, x) ==> y == Null || y in r.hash
    ensures Grows(g, w, r) && x in r.hash && Expanded(g, r.hash, x)
  {
    var w' := Has(w, x).1;
    assert w.order <= w'.order;
  }

  /** Outside the graph only the attribute-argument structs have successors, and those are smaller. */
  lemma SuccRank(g: Graph, x: Obj)
    ensures x !in Refs(g) ==> MaxRank(Succ(g, x)) < Rank(x)
  {
    match x
    case Argument(t, _) => assert MaxRank([t]) == Rank(t);
    case Named(_, a) => assert MaxRank([a]) == Rank(a);
    case _ =>
  }

  lemma MeasureShrinks(u: set<Obj>, h: set<Obj>, x: Obj)
    ensures x in u && x !in h ==> |u - (h + {x})| < |u - h|
    ensures x !in u ==> u - (h + {x}) == u - h
  {
    if x in u && x !in h {
      assert u - (h + {x}) == (u - h) - {x};
    }
  }

  lemma MeasureMonotone(u: set<Obj>, h: set<Obj>, h': set<Obj>)
    requires h <= h'
    ensures |u - h'| <= |u - h|
  {
    var a, b := u - h', u - h;
    assert b == a + (b - a);
    assert a !! (b - a);
  }
}

=== FILE: wrappers.dfy ===
/** The nullable-value wrapper shared by the model: a C# reference that may be null. */
module Wrappers {

  datatype Option<+T> = None | Some(value: T)
}
